=== FILE: README.md ===
# Disk write-ahead log: segment manager

A Dafny model of the segment manager of OrientDB's disk write-ahead log,
`ODiskWriteAheadLog`. The log keeps an ordered list of segment files. A
record gets its log sequence number (LSN) from the tail segment. The tail is
rotated once it reaches `maxSegmentSize`, but only at a point where no atomic
operation straddles the boundary. Leading segments are deleted by `cutTill`,
which respects reference-counted retention floors (`cutTillLimits`). The
latest checkpoint LSN is kept in a two-slot side file (`.wmr`), and the slots
are written alternately.

The model is a sequential state machine over segment summaries:

- Every public operation is a pure function from a `Wal` state to a new state.
- An exception becomes an error value of a `Result`.
- The blocking wait of `internalLog` becomes a `Blocked` outcome.
- Writes to the master-record file are returned as a list of effects
  (`MasterIo`). `MasterRecord.Apply` interprets that list over the file's
  bytes.

## Assumptions

- **LSNs.** `OLogSequenceNumber` is not part of this model. An LSN is taken to
  be a pair (segment, position), compared segment first and then position.
  Both are unbounded integers. The 64-bit encoding appears only in the
  master-record file.
- **Segments.** A segment is summarised as (order, filledUpTo, begin, end).
  `OLogSegment.logRecord` is abstracted:
  - the record is placed at the segment's current fill offset, which gives
    LSN (order, filledUpTo);
  - the segment grows by a positive footprint.

  The segment's page layout is not modelled.
- **CRC.** The CRC-32 of `java.util.zip.CRC32` (ISO 3309 / ITU-T V.42) is a
  function parameter. Every master-record lemma holds for any checksum
  function.
- **The all-zero slot** (`WalCheckpoints.ZeroSlotRejected`). The lemmas that
  keep the file in step with the state assume that a slot of twenty zero
  bytes fails the checksum test. CRC-32 has this property: its value over
  sixteen zero bytes is not zero.
- **Start and end records.** These are logged with `isUpdateMasterRecord`
  false, as atomic-unit records are not checkpoints.
- **Byte order of the master file.** `OIntegerSerializer` and
  `OLongSerializer.serializeLiteral` write big-endian, the order in which
  `RandomAccessFile.readInt` and `readLong` read (lines 1052-1058 and
  1079-1088). `MasterRecord.IntBytes` and `MasterRecord.LongBytes` are
  big-endian for that reason; the slot round trip rests on it.
- **Gaps in the master file.** A write past the end of the `.wmr` file leaves
  a gap, and the gap reads back as zero bytes (`MasterRecord.WriteSlot`).
  This is how a seek past end-of-file behaves for a `RandomAccessFile`.
- **Int casts.** The `(int)` casts of the segment-index arithmetic are
  modelled with their 32-bit wrap (`JavaInts.ToInt32`).

## State invariant

`WriteAheadLog.Valid` is the invariant every operation is proved to keep:

- the list is non-empty;
- every segment is well formed;
- orders strictly increase;
- every segment except the tail holds a record;
- `logSize` is the sum of `filledUpTo`;
- the retention floors are sorted with positive counts;
- the end-record history has at most 17 entries, is increasing, and was
  handed out before the current state.

`WriteAheadLog.CheckpointInSpareSlot` says that the current checkpoint never
sits in the slot due next. `WalCheckpoints.Mirrors` says that the master file
reads back as the in-memory slots.

## Notes on the code

- **`lastTXs`** can hold 17 entries. `MAX_LAST_TXS` is 16, but the size test
  at lines 608-612 runs before the add. See `WalInvariants.LastTxsReachesSeventeen`.
- **`truncate`** (lines 738-755) and the rotation in `internalLog` do not call
  `fixMasterRecords`. The model does not call it there either.

## Model

All source paths are relative to `core/src/main/java/com/orientechnologies/orient/core/storage/impl/local/paginated/wal/`. They are written out in full in the table.

| member | source | states |
|---|---|---|
| Segments.NewSegment | core/src/main/java/com/orientechnologies/orient/core/storage/impl/local/paginated/wal/ODiskWriteAheadLog.java:621-631 | a freshly created segment has the given order, is empty and is well formed |
| Segments.LogRecord | core/src/main/java/com/orientechnologies/orient/core/storage/impl/local/paginated/wal/ODiskWriteAheadLog.java:566-569 | the record's LSN is (order, filledUpTo) of the segment, becomes its end, becomes its begin when it had none, and lies above its previous end; the segment grows by the footprint and stays well formed |
| SegmentList.ReadIndex | core/src/main/java/com/orientechnologies/orient/core/storage/impl/local/paginated/wal/ODiskWriteAheadLog.java:836-847 | `read` finds a segment exactly when the cast index lies inside the list, and otherwise returns null |
| SegmentList.Begin | core/src/main/java/com/orientechnologies/orient/core/storage/impl/local/paginated/wal/ODiskWriteAheadLog.java:414-440 | `begin()` is the begin of the first filled segment, and null when every segment is empty |
| SegmentList.End | core/src/main/java/com/orientechnologies/orient/core/storage/impl/local/paginated/wal/ODiskWriteAheadLog.java:443-463 | `end()` is the end of the last filled segment, and null when every segment is empty |
| SegmentList.NextFrom | core/src/main/java/com/orientechnologies/orient/core/storage/impl/local/paginated/wal/ODiskWriteAheadLog.java:877-888 | the forward scan of `next` returns the begin of some later filled segment, or null when no later segment is filled with a first record |
| SegmentList.Next | core/src/main/java/com/orientechnologies/orient/core/storage/impl/local/paginated/wal/ODiskWriteAheadLog.java:862-894 | `next` returns null for an index outside the list; otherwise the segment's own next LSN when it has one, and else the result of the forward scan from the following segment |
| SegmentList.RecalculateLogSize | core/src/main/java/com/orientechnologies/orient/core/storage/impl/local/paginated/wal/ODiskWriteAheadLog.java:997-1002 | the loop computes the sum of `filledUpTo`, which is zero exactly when every segment is empty |
| SegmentList.EndIsGreatest | core/src/main/java/com/orientechnologies/orient/core/storage/impl/local/paginated/wal/ODiskWriteAheadLog.java:443-463 | under the shape invariants no segment ends after `end()` |
| SegmentList.BeginIsLeast | core/src/main/java/com/orientechnologies/orient/core/storage/impl/local/paginated/wal/ODiskWriteAheadLog.java:414-440 | under the shape invariants no segment begins before `begin()` |
| SegmentList.NextFromIsBegin | core/src/main/java/com/orientechnologies/orient/core/storage/impl/local/paginated/wal/ODiskWriteAheadLog.java:877-888 | the scan of `next` from index i is `begin()` of the segments from i on |
| SegmentList.NextAfterSegment | core/src/main/java/com/orientechnologies/orient/core/storage/impl/local/paginated/wal/ODiskWriteAheadLog.java:877-888 | when the LSN's segment has no next record, `next` returns `begin()` of the later segments, or null when the segment is the last one |
| SegmentList.ReadIndexFindsSegment | core/src/main/java/com/orientechnologies/orient/core/storage/impl/local/paginated/wal/ODiskWriteAheadLog.java:841-847 | with gap-free orders and no wrap, `read` finds a segment iff one has the LSN's segment number, and the one it finds has that number |
| SegmentList.ReadIndexWraps | core/src/main/java/com/orientechnologies/orient/core/storage/impl/local/paginated/wal/ODiskWriteAheadLog.java:842 | the `(int)` cast wraps: an LSN 2^32 segments ahead is looked up in segment 0 |
| SegmentList.TotalFilledConcat | core/src/main/java/com/orientechnologies/orient/core/storage/impl/local/paginated/wal/ODiskWriteAheadLog.java:997-1002 | the log size of a concatenation is the sum of the parts' sizes |
| JavaInts.ToInt32 | core/src/main/java/com/orientechnologies/orient/core/storage/impl/local/paginated/wal/ODiskWriteAheadLog.java:842 | the `(int)` cast lands in int range, agrees with its argument modulo 2^32, and is the identity on ints |
| JavaInts.ToInt64 | core/src/main/java/com/orientechnologies/orient/core/storage/impl/local/paginated/wal/ODiskWriteAheadLog.java:1053-1054 | reading eight bytes as a long lands in long range, agrees modulo 2^64, and is the identity on longs |
| CutTillLimits.Count | core/src/main/java/com/orientechnologies/orient/core/storage/impl/local/paginated/wal/ODiskWriteAheadLog.java:946 | a floor has a positive count iff it is a key of the map |
| CutTillLimits.Insert | core/src/main/java/com/orientechnologies/orient/core/storage/impl/local/paginated/wal/ODiskWriteAheadLog.java:945-960 | adding inserts the floor with count 1 or bumps its count, leaves other counts alone and keeps the map sorted |
| CutTillLimits.AddCutTillLimit | core/src/main/java/com/orientechnologies/orient/core/storage/impl/local/paginated/wal/ODiskWriteAheadLog.java:941-961 | null is refused (NullPointerException); otherwise the count of the LSN goes up by one and nothing else changes |
| CutTillLimits.Decrement | core/src/main/java/com/orientechnologies/orient/core/storage/impl/local/paginated/wal/ODiskWriteAheadLog.java:974-978 | the count goes down by one and the key disappears when it reaches zero |
| CutTillLimits.RemoveCutTillLimit | core/src/main/java/com/orientechnologies/orient/core/storage/impl/local/paginated/wal/ODiskWriteAheadLog.java:964-983 | null is refused (NullPointerException); an absent LSN is refused (IllegalArgumentException); otherwise the count goes down by one and the key stays iff its count was above one |
| CutTillLimits.Lowest | core/src/main/java/com/orientechnologies/orient/core/storage/impl/local/paginated/wal/ODiskWriteAheadLog.java:909 | `firstEntry()` is null iff the map is empty, and otherwise is the least key |
| CutTillLimits.Clamp | core/src/main/java/com/orientechnologies/orient/core/storage/impl/local/paginated/wal/ODiskWriteAheadLog.java:909-912 | the cut target is at most the requested LSN and at most every floor, and is either the requested LSN or a floor |
| CutTillLimits.CountsDetermineList | core/src/main/java/com/orientechnologies/orient/core/storage/impl/local/paginated/wal/ODiskWriteAheadLog.java:940-983 | two well-formed limit maps with the same counts are identical, so the map is a counted multiset |
| CutTillLimits.RemoveUndoesAdd | core/src/main/java/com/orientechnologies/orient/core/storage/impl/local/paginated/wal/ODiskWriteAheadLog.java:940-983 | one removal undoes one addition of the same LSN exactly |
| CutTillLimits.AddCommutes | core/src/main/java/com/orientechnologies/orient/core/storage/impl/local/paginated/wal/ODiskWriteAheadLog.java:941-961 | registering two floors in either order gives the same map |
| CutTillLimits.AddTimes | core/src/main/java/com/orientechnologies/orient/core/storage/impl/local/paginated/wal/ODiskWriteAheadLog.java:941-961 | n additions raise the LSN's count by n and leave every other count alone |
| CutTillLimits.RemoveTimes | core/src/main/java/com/orientechnologies/orient/core/storage/impl/local/paginated/wal/ODiskWriteAheadLog.java:964-983 | n removals succeed iff the count is at least n, otherwise fail with IllegalArgumentException, and lower the count by n |
| CutTillLimits.RemovesUndoAdds | core/src/main/java/com/orientechnologies/orient/core/storage/impl/local/paginated/wal/ODiskWriteAheadLog.java:940-983 | n additions followed by n removals of one LSN restore the map, so an absent LSN is absent again |
| MasterRecord.EncodeSlot | core/src/main/java/com/orientechnologies/orient/core/storage/impl/local/paginated/wal/ODiskWriteAheadLog.java:1074-1089 | a slot is 20 bytes whose last 16 are the big-endian payload of the LSN |
| MasterRecord.DecodeSlot | core/src/main/java/com/orientechnologies/orient/core/storage/impl/local/paginated/wal/ODiskWriteAheadLog.java:1052-1067 | a slot is accepted only when the stored int equals the int cast of the payload's CRC; the LSN it yields is a pair of longs |
| MasterRecord.ReadSlot | core/src/main/java/com/orientechnologies/orient/core/storage/impl/local/paginated/wal/ODiskWriteAheadLog.java:1047-1072 | a slot that lies past the end of the file reads as null (EOFException) |
| MasterRecord.WriteSlot | core/src/main/java/com/orientechnologies/orient/core/storage/impl/local/paginated/wal/ODiskWriteAheadLog.java:1074-1090 | writing a slot puts its encoding at offset 20·index, grows the file when needed and leaves every other byte alone |
| MasterRecord.FromBigEndianOfBigEndian | core/src/main/java/com/orientechnologies/orient/core/storage/impl/local/paginated/wal/ODiskWriteAheadLog.java:1052-1054 | reading k big-endian bytes gives back any number below 256^k that was written |
| MasterRecord.BigEndianOfFromBigEndian | core/src/main/java/com/orientechnologies/orient/core/storage/impl/local/paginated/wal/ODiskWriteAheadLog.java:1056-1058 | re-serializing the value of k bytes gives the same bytes |
| MasterRecord.LongRoundTrip | core/src/main/java/com/orientechnologies/orient/core/storage/impl/local/paginated/wal/ODiskWriteAheadLog.java:1053-1058 | `readLong` undoes `serializeLiteral` on every long |
| MasterRecord.IntRoundTrip | core/src/main/java/com/orientechnologies/orient/core/storage/impl/local/paginated/wal/ODiskWriteAheadLog.java:1052 | `readInt` of a serialized value gives its int cast |
| MasterRecord.LongBytesOfReadLong | core/src/main/java/com/orientechnologies/orient/core/storage/impl/local/paginated/wal/ODiskWriteAheadLog.java:1053-1058 | re-serializing a long read from eight bytes gives those bytes |
| MasterRecord.IntBytesOfReadInt | core/src/main/java/com/orientechnologies/orient/core/storage/impl/local/paginated/wal/ODiskWriteAheadLog.java:1052 | re-serializing an int read from four bytes gives those bytes |
| MasterRecord.SlotRoundTrip | core/src/main/java/com/orientechnologies/orient/core/storage/impl/local/paginated/wal/ODiskWriteAheadLog.java:1047-1090 | a slot written for an LSN of two longs is read back as that LSN, for every checksum function |
| MasterRecord.DecodedSlotIsEncoding | core/src/main/java/com/orientechnologies/orient/core/storage/impl/local/paginated/wal/ODiskWriteAheadLog.java:1047-1090 | conversely, a slot that passes the check is exactly the encoding of the LSN it yields |
| MasterRecord.ReadAfterWrite | core/src/main/java/com/orientechnologies/orient/core/storage/impl/local/paginated/wal/ODiskWriteAheadLog.java:1047-1090 | reading a slot just written gives the LSN written |
| MasterRecord.WriteLeavesOtherSlot | core/src/main/java/com/orientechnologies/orient/core/storage/impl/local/paginated/wal/ODiskWriteAheadLog.java:1075 | writing one slot does not change what a complete other slot reads |
| SegmentNames.Lower | core/src/main/java/com/orientechnologies/orient/core/storage/impl/local/paginated/wal/ODiskWriteAheadLog.java:360-361 | lower-casing maps each character and keeps the length |
| SegmentNames.IndexOf | core/src/main/java/com/orientechnologies/orient/core/storage/impl/local/paginated/wal/ODiskWriteAheadLog.java:366 | `indexOf` returns the first occurrence at or after `from`, or -1 when there is none |
| SegmentNames.ParseInt | core/src/main/java/com/orientechnologies/orient/core/storage/impl/local/paginated/wal/ODiskWriteAheadLog.java:377-382 | `Integer.parseInt` succeeds only on an optional sign followed by at least one digit, and only with an int value |
| SegmentNames.ParseIntDigits | core/src/main/java/com/orientechnologies/orient/core/storage/impl/local/paginated/wal/ODiskWriteAheadLog.java:377-382 | `Integer.parseInt` reads every non-empty digit string, bare, after '+' or after '-', as its signed decimal value when that fits in an int, and fails otherwise |
| SegmentNames.ParseSigned | core/src/main/java/com/orientechnologies/orient/core/storage/impl/local/paginated/wal/ODiskWriteAheadLog.java:377-382 | `Integer.parseInt` of a sign followed by digits is the signed value when it fits in an int, and fails otherwise |
| SegmentNames.GetSegmentName | core/src/main/java/com/orientechnologies/orient/core/storage/impl/local/paginated/wal/ODiskWriteAheadLog.java:355-357 | the name is the storage name, a dot, the order and ".wal" |
| SegmentNames.SplitName | core/src/main/java/com/orientechnologies/orient/core/storage/impl/local/paginated/wal/ODiskWriteAheadLog.java:363-376 | a name splits iff it ends in ".wal" and its first dot is not the extension's; the parts are the dot-free text before the first dot and the dot-free text between the first and second dots |
| SegmentNames.SplitRebuilds | core/src/main/java/com/orientechnologies/orient/core/storage/impl/local/paginated/wal/ODiskWriteAheadLog.java:366-376 | the two parts, their dots and the rest after the second dot make up the whole name |
| SegmentNames.SplitParts | core/src/main/java/com/orientechnologies/orient/core/storage/impl/local/paginated/wal/ODiskWriteAheadLog.java:363-376 | a name `a.b.t` ending in ".wal", with dot-free a and b and its first dot not the extension's, splits into a and b |
| SegmentNames.FirstDotBeforeExtension | core/src/main/java/com/orientechnologies/orient/core/storage/impl/local/paginated/wal/ODiskWriteAheadLog.java:367-368 | in `s.o.t` with a parsable o, the first dot is not the extension's, so the length test never rejects such a name |
| SegmentNames.ValidateSimpleName | core/src/main/java/com/orientechnologies/orient/core/storage/impl/local/paginated/wal/ODiskWriteAheadLog.java:387-407 | an accepted name ends in ".wal" after lower-casing |
| SegmentNames.ValidateSimpleNameIff | core/src/main/java/com/orientechnologies/orient/core/storage/impl/local/paginated/wal/ODiskWriteAheadLog.java:387-407 | `validateSimpleName` accepts a name iff, lower-cased, it ends in ".wal" and reads `s.o.t` for some dot-free s and a dot-free o that parses as an int |
| SegmentNames.ValidateName | core/src/main/java/com/orientechnologies/orient/core/storage/impl/local/paginated/wal/ODiskWriteAheadLog.java:359-385 | a name accepted for a storage is also accepted by the simple filter, and the lower-cased storage name then has no dot |
| SegmentNames.ValidateNameIff | core/src/main/java/com/orientechnologies/orient/core/storage/impl/local/paginated/wal/ODiskWriteAheadLog.java:359-385 | `validateName` accepts a name iff, lower-cased, it ends in ".wal" and reads `storage.o.t` for the lower-cased, dot-free storage name and a dot-free o that parses as an int |
| SegmentNames.DigitsRoundTrip | core/src/main/java/com/orientechnologies/orient/core/storage/impl/local/paginated/wal/ODiskWriteAheadLog.java:356 | the decimal digits of a number denote that number |
| SegmentNames.ParseDecimalString | core/src/main/java/com/orientechnologies/orient/core/storage/impl/local/paginated/wal/ODiskWriteAheadLog.java:379 | `Integer.parseInt` reads back `Long.toString(order)` iff the order fits in an int, and fails otherwise |
| SegmentNames.LowerSegmentName | core/src/main/java/com/orientechnologies/orient/core/storage/impl/local/paginated/wal/ODiskWriteAheadLog.java:360 | lower-casing a segment name lower-cases only the storage name |
| SegmentNames.SplitDotted | core/src/main/java/com/orientechnologies/orient/core/storage/impl/local/paginated/wal/ODiskWriteAheadLog.java:366-376 | "a.b.wal" with dot-free a and b splits into a and b |
| SegmentNames.SegmentNameAccepted | core/src/main/java/com/orientechnologies/orient/core/storage/impl/local/paginated/wal/ODiskWriteAheadLog.java:355-407 | for a dot-free storage name, both filters accept `getSegmentName(order)` iff the order fits in an int |
| SegmentNames.SegmentNameReadsBack | core/src/main/java/com/orientechnologies/orient/core/storage/impl/local/paginated/wal/ODiskWriteAheadLog.java:355-385 | for a dot-free storage name, the split of the lower-cased `getSegmentName(order)` gives back the lower-cased storage name and the decimal order, and the order parses back to itself iff it fits in an int |
| SegmentNames.DottedStorageNameRejected | core/src/main/java/com/orientechnologies/orient/core/storage/impl/local/paginated/wal/ODiskWriteAheadLog.java:359-372 | a storage name with a dot never recognises its own segment files |
| WriteAheadLog.PushLastTx | core/src/main/java/com/orientechnologies/orient/core/storage/impl/local/paginated/wal/ODiskWriteAheadLog.java:608-612 | the LSN is appended, and the oldest entry is dropped first only when the list already holds more than 16 |
| WriteAheadLog.RecordCheckpoint | core/src/main/java/com/orientechnologies/orient/core/storage/impl/local/paginated/wal/ODiskWriteAheadLog.java:572-583 | a checkpoint goes into the slot that is due, the due slot flips, the other slot is kept, and one slot write is issued |
| WriteAheadLog.GrowTail | core/src/main/java/com/orientechnologies/orient/core/storage/impl/local/paginated/wal/ODiskWriteAheadLog.java:588-598 | the tail grows by the record, the other segments are kept, and on rotation one empty segment of the next order follows |
| WriteAheadLog.InternalLog | core/src/main/java/com/orientechnologies/orient/core/storage/impl/local/paginated/wal/ODiskWriteAheadLog.java:550-619 | blocks iff a rotation is pending and the record belongs to an inactive operation; otherwise covers the LSN from the tail, the rotation or its deferral, the flag, the `logSize` bump, the slot write, the history and the checkpoint request; nothing else changes |
| WriteAheadLog.LogAtomicOperationStartRecord | core/src/main/java/com/orientechnologies/orient/core/storage/impl/local/paginated/wal/ODiskWriteAheadLog.java:482-504 | the operation is added to the active set after its record is logged |
| WriteAheadLog.LogAtomicOperationEndRecord | core/src/main/java/com/orientechnologies/orient/core/storage/impl/local/paginated/wal/ODiskWriteAheadLog.java:507-531 | the operation is removed from the active set after its record is logged, and its LSN enters the history |
| WriteAheadLog.AppendNewSegment | core/src/main/java/com/orientechnologies/orient/core/storage/impl/local/paginated/wal/ODiskWriteAheadLog.java:1139-1160 | throws iff operations are active; returns false and changes nothing when the log or its tail is empty; otherwise adds one segment of the next order and returns true |
| WriteAheadLog.MoveLsnAfter | core/src/main/java/com/orientechnologies/orient/core/storage/impl/local/paginated/wal/ODiskWriteAheadLog.java:642-673 | throws when operations are active or the log is empty; does nothing when `end()` is above the LSN; otherwise drops an empty tail and adds segment `lsn.segment + 1` |
| WriteAheadLog.Truncate | core/src/main/java/com/orientechnologies/orient/core/storage/impl/local/paginated/wal/ODiskWriteAheadLog.java:738-755 | with two or more segments only the tail is kept and the size is recomputed; otherwise nothing changes |
| WriteAheadLog.LeadingRun | core/src/main/java/com/orientechnologies/orient/core/storage/impl/local/paginated/wal/ODiskWriteAheadLog.java:914-923 | the scan counts the leading non-tail segments that end below the target and stops at the first that does not; a missing end met on the way is a NullPointerException |
| WriteAheadLog.CheckSlot | core/src/main/java/com/orientechnologies/orient/core/storage/impl/local/paginated/wal/ODiskWriteAheadLog.java:1005-1025 | a slot survives iff its cast index is inside the list and its position is below that segment's fill |
| WriteAheadLog.FixMasterRecords | core/src/main/java/com/orientechnologies/orient/core/storage/impl/local/paginated/wal/ODiskWriteAheadLog.java:1004-1045 | both slots survive: nothing changes; neither survives: the checkpoint is dropped and the file cleared; one survives: it is copied to both slots, becomes the checkpoint and is written twice |
| WriteAheadLog.CutSegments | core/src/main/java/com/orientechnologies/orient/core/storage/impl/local/paginated/wal/ODiskWriteAheadLog.java:914-929 | the kept segments are a non-empty suffix (the tail is never deleted); every deleted segment ends below the target; the first kept one does not, unless it is the tail |
| WriteAheadLog.CutTill | core/src/main/java/com/orientechnologies/orient/core/storage/impl/local/paginated/wal/ODiskWriteAheadLog.java:902-938 | cuts to the clamped target; returns true iff a segment was removed; recomputes the size; re-validates the slots; changes nothing else |
| WriteAheadLog.SelectCheckpoint | core/src/main/java/com/orientechnologies/orient/core/storage/impl/local/paginated/wal/ODiskWriteAheadLog.java:310-329 | the larger valid slot becomes the checkpoint; slot 0 is due next exactly when slot 0 is null or below slot 1, so on a tie slot 0 is the checkpoint and slot 1 is due |
| WriteAheadLog.Initial | core/src/main/java/com/orientechnologies/orient/core/storage/impl/local/paginated/wal/ODiskWriteAheadLog.java:229-243 | with no segment file found the log starts with empty segment 0; otherwise it uses the files found, sizes them, and no operation or floor is registered |
| WriteAheadLog.OpenMaster | core/src/main/java/com/orientechnologies/orient/core/storage/impl/local/paginated/wal/ODiskWriteAheadLog.java:307-331 | after opening, both slots point into the log; for a non-empty side file the checkpoint is the larger of the read slots that still point into the log, the due slot is chosen from the slots as read, and nothing is written iff both slots survive (the file is cleared when neither does); an empty file with no slots leaves no checkpoint and is cleared; nothing else changes |
| WriteAheadLog.GetOldestTxLsn | core/src/main/java/com/orientechnologies/orient/core/storage/impl/local/paginated/wal/ODiskWriteAheadLog.java:634-639 | the oldest entry of the history, or `end()` when the history is empty |
| WriteAheadLog.AddLimit | core/src/main/java/com/orientechnologies/orient/core/storage/impl/local/paginated/wal/ODiskWriteAheadLog.java:941-961 | registering a floor changes only the limits |
| WriteAheadLog.RemoveLimit | core/src/main/java/com/orientechnologies/orient/core/storage/impl/local/paginated/wal/ODiskWriteAheadLog.java:964-983 | removing a floor succeeds iff it was registered, and changes only the limits |
| WalInvariants.EndBelowNextLsn | core/src/main/java/com/orientechnologies/orient/core/storage/impl/local/paginated/wal/ODiskWriteAheadLog.java:566-569 | the next LSN the tail hands out lies above `end()` |
| WalInvariants.IssuedBelowNext | core/src/main/java/com/orientechnologies/orient/core/storage/impl/local/paginated/wal/ODiskWriteAheadLog.java:566-569 | every LSN handed out so far lies below the next one |
| WalInvariants.SuffixKeepsIssued | core/src/main/java/com/orientechnologies/orient/core/storage/impl/local/paginated/wal/ODiskWriteAheadLog.java:925-929 | deleting leading segments, never the tail, keeps every issued LSN counted as issued |
| WalInvariants.InternalLogKeepsValid | core/src/main/java/com/orientechnologies/orient/core/storage/impl/local/paginated/wal/ODiskWriteAheadLog.java:550-619 | logging keeps the invariant; the new LSN becomes `end()` and lies above every earlier segment end and history entry |
| WalInvariants.LoggedSegments | core/src/main/java/com/orientechnologies/orient/core/storage/impl/local/paginated/wal/ODiskWriteAheadLog.java:566-598 | after logging, the list keeps its shape, its size grows by the footprint, and it ends at the new record |
| WalInvariants.PushedTxs | core/src/main/java/com/orientechnologies/orient/core/storage/impl/local/paginated/wal/ODiskWriteAheadLog.java:608-612 | the history stays increasing and holds at most 17 entries |
| WalInvariants.LogStartKeepsValid | core/src/main/java/com/orientechnologies/orient/core/storage/impl/local/paginated/wal/ODiskWriteAheadLog.java:482-504 | logging a start record keeps the invariant |
| WalInvariants.LogEndKeepsValid | core/src/main/java/com/orientechnologies/orient/core/storage/impl/local/paginated/wal/ODiskWriteAheadLog.java:507-531 | logging an end record keeps the invariant |
| WalInvariants.SuccessiveLsnsIncrease | core/src/main/java/com/orientechnologies/orient/core/storage/impl/local/paginated/wal/ODiskWriteAheadLog.java:566-569 | two records logged in a row get increasing LSNs |
| WalInvariants.AppendNewSegmentKeepsValid | core/src/main/java/com/orientechnologies/orient/core/storage/impl/local/paginated/wal/ODiskWriteAheadLog.java:1139-1160 | the public `appendNewSegment` keeps the invariant |
| WalInvariants.MoveLsnAfterKeepsValid | core/src/main/java/com/orientechnologies/orient/core/storage/impl/local/paginated/wal/ODiskWriteAheadLog.java:642-673 | `moveLsnAfter` keeps the invariant |
| WalInvariants.MovedSegments | core/src/main/java/com/orientechnologies/orient/core/storage/impl/local/paginated/wal/ODiskWriteAheadLog.java:654-668 | `moveLsnAfter` keeps the list's shape, its size and `end()` |
| WalInvariants.TruncateKeepsValid | core/src/main/java/com/orientechnologies/orient/core/storage/impl/local/paginated/wal/ODiskWriteAheadLog.java:738-755 | `truncate` keeps the invariant |
| WalInvariants.FixMasterRecordsKeepsValid | core/src/main/java/com/orientechnologies/orient/core/storage/impl/local/paginated/wal/ODiskWriteAheadLog.java:1004-1045 | `fixMasterRecords` keeps the invariant |
| WalInvariants.CutTillKeepsValid | core/src/main/java/com/orientechnologies/orient/core/storage/impl/local/paginated/wal/ODiskWriteAheadLog.java:902-938 | under the invariant `cutTill` never throws and keeps the invariant |
| WalInvariants.LimitsKeepValid | core/src/main/java/com/orientechnologies/orient/core/storage/impl/local/paginated/wal/ODiskWriteAheadLog.java:940-983 | adding and removing floors keep the invariant |
| WalInvariants.CutTillKeepsFromTarget | core/src/main/java/com/orientechnologies/orient/core/storage/impl/local/paginated/wal/ODiskWriteAheadLog.java:914-929 | every kept segment except the tail ends at or after the target |
| WalInvariants.CutTillRespectsLimits | core/src/main/java/com/orientechnologies/orient/core/storage/impl/local/paginated/wal/ODiskWriteAheadLog.java:909-929 | a deleted segment always ends below every registered floor, whatever LSN the cut was asked for |
| WalInvariants.InternalLogKeepsConsecutive | core/src/main/java/com/orientechnologies/orient/core/storage/impl/local/paginated/wal/ODiskWriteAheadLog.java:588-598 | logging keeps segment orders gap-free |
| WalInvariants.AppendNewSegmentKeepsConsecutive | core/src/main/java/com/orientechnologies/orient/core/storage/impl/local/paginated/wal/ODiskWriteAheadLog.java:1139-1160 | `appendNewSegment` keeps segment orders gap-free |
| WalInvariants.TruncateKeepsConsecutive | core/src/main/java/com/orientechnologies/orient/core/storage/impl/local/paginated/wal/ODiskWriteAheadLog.java:738-755 | `truncate` keeps segment orders gap-free |
| WalInvariants.CutTillKeepsConsecutive | core/src/main/java/com/orientechnologies/orient/core/storage/impl/local/paginated/wal/ODiskWriteAheadLog.java:902-938 | `cutTill` keeps segment orders gap-free |
| WalInvariants.MoveLsnAfterCanBreakConsecutive | core/src/main/java/com/orientechnologies/orient/core/storage/impl/local/paginated/wal/ODiskWriteAheadLog.java:642-673 | `moveLsnAfter` past the next order leaves a gap; the next record logged then gets an LSN in a segment that `read` does not find |
| WalInvariants.OldestTxIsLeast | core/src/main/java/com/orientechnologies/orient/core/storage/impl/local/paginated/wal/ODiskWriteAheadLog.java:634-639 | the oldest transaction LSN was issued and is the least history entry; it is null iff history and log are both empty |
| WalInvariants.LastTxsReachesSeventeen | core/src/main/java/com/orientechnologies/orient/core/storage/impl/local/paginated/wal/ODiskWriteAheadLog.java:608-612 | an end record logged with 16 history entries leaves 17 |
| WalInvariants.LastTxsSlides | core/src/main/java/com/orientechnologies/orient/core/storage/impl/local/paginated/wal/ODiskWriteAheadLog.java:608-612 | with 17 entries each end record drops the oldest and keeps 17 |
| WalRotation.EndWithOthersActiveDefers | core/src/main/java/com/orientechnologies/orient/core/storage/impl/local/paginated/wal/ODiskWriteAheadLog.java:588-598 | an end record with other operations active never rotates, and sets the flag when it fills the tail |
| WalRotation.LastEndRotates | core/src/main/java/com/orientechnologies/orient/core/storage/impl/local/paginated/wal/ODiskWriteAheadLog.java:588-598 | the end record of the only active operation rotates a full tail, clears the flag and leaves nothing active |
| WalRotation.PlainRecordRotatesWhenIdle | core/src/main/java/com/orientechnologies/orient/core/storage/impl/local/paginated/wal/ODiskWriteAheadLog.java:588-598 | a record outside atomic operations rotates a full tail when nothing is active |
| WalRotation.OperationRecordsNeverRotate | core/src/main/java/com/orientechnologies/orient/core/storage/impl/local/paginated/wal/ODiskWriteAheadLog.java:588-598 | start records and the other records of an operation never rotate, and set the flag when they fill the tail |
| WalRotation.ActiveOperationsProceed | core/src/main/java/com/orientechnologies/orient/core/storage/impl/local/paginated/wal/ODiskWriteAheadLog.java:555-564 | records of active operations and plain records never wait |
| WalRotation.DeferredRotationBlocksNewOperations | core/src/main/java/com/orientechnologies/orient/core/storage/impl/local/paginated/wal/ODiskWriteAheadLog.java:555-598 | after a deferred rotation a new operation's start record waits |
| WalRotation.PendingRotationDoneByLastEnd | core/src/main/java/com/orientechnologies/orient/core/storage/impl/local/paginated/wal/ODiskWriteAheadLog.java:588-598 | the last active operation's end record carries out the pending rotation and releases new operations |
| WalCheckpoints.WriteOneSlot | core/src/main/java/com/orientechnologies/orient/core/storage/impl/local/paginated/wal/ODiskWriteAheadLog.java:1074-1090 | writing one of the two slots makes it read back the LSN and leaves the other slot's reading alone |
| WalCheckpoints.LogKeepsFileInStep | core/src/main/java/com/orientechnologies/orient/core/storage/impl/local/paginated/wal/ODiskWriteAheadLog.java:572-583 | after logging, the file on disk reads back as the slots in memory |
| WalCheckpoints.FixKeepsFileInStep | core/src/main/java/com/orientechnologies/orient/core/storage/impl/local/paginated/wal/ODiskWriteAheadLog.java:1027-1044 | after `fixMasterRecords`, the file on disk reads back as the slots in memory |
| WalCheckpoints.WriteBothSlots | core/src/main/java/com/orientechnologies/orient/core/storage/impl/local/paginated/wal/ODiskWriteAheadLog.java:1042-1043 | copying one LSN to both slots makes both read it |
| WalCheckpoints.OpenLeavesFileInStep | core/src/main/java/com/orientechnologies/orient/core/storage/impl/local/paginated/wal/ODiskWriteAheadLog.java:307-331 | after construction the file reads back as the slots in memory |
| WalCheckpoints.OpenIsValid | core/src/main/java/com/orientechnologies/orient/core/storage/impl/local/paginated/wal/ODiskWriteAheadLog.java:229-331 | construction over well-shaped segments yields a valid log whose checkpoint is not in the slot due next |
| WalCheckpoints.FixKeepsSpareSlot | core/src/main/java/com/orientechnologies/orient/core/storage/impl/local/paginated/wal/ODiskWriteAheadLog.java:1004-1045 | `fixMasterRecords` keeps the checkpoint out of the slot due next |
| WalCheckpoints.FixMasterRecordsIdempotent | core/src/main/java/com/orientechnologies/orient/core/storage/impl/local/paginated/wal/ODiskWriteAheadLog.java:1004-1045 | a second `fixMasterRecords` changes no state and writes no slot |
| WalCheckpoints.CheckpointWriteKeepsPrevious | core/src/main/java/com/orientechnologies/orient/core/storage/impl/local/paginated/wal/ODiskWriteAheadLog.java:572-583 | a checkpoint write leaves the previous checkpoint in the other slot |
| WalCheckpoints.SuccessiveCheckpointsAlternate | core/src/main/java/com/orientechnologies/orient/core/storage/impl/local/paginated/wal/ODiskWriteAheadLog.java:572-583 | two checkpoints in a row hit different slots, which then hold exactly those two LSNs |
| WalCheckpoints.TornCheckpointWriteFallsBack | core/src/main/java/com/orientechnologies/orient/core/storage/impl/local/paginated/wal/ODiskWriteAheadLog.java:310-329 | if the slot being written is torn, the next start selects the previous checkpoint |

## Left out

- Closing, deleting and the closed check: `close`, `delete` and `checkForClose`, along with the background writers and thread pools, are concurrency and file I/O.
- `flush`, `getFlushedLsn` and `findFlushedLSN` depend on the segments' page writers, which are not part of this model. The `flush()` at the start of `cutTill` is left out for that reason.
- The full-checkpoint and low-disk-space listeners are weak-reference callbacks. `InternalLog` returns whether the full-checkpoint request fires (`fullCheckpointRequested`). `checkFreeSpace` is platform I/O.
- Segment discovery and construction:
  - directory listing, reading the magic number, sorting, and upgrading a V1 tail segment (lines 245-300);
  - `Initial` takes the discovered segments as already ordered summaries.
- `activeSegment`, `nonActiveSegments`, `size`, `getWalFiles`, `getWMRFile` and `getPreferredSegmentCount` are plain accessors over the same state.
- The `log` wrapper only adds statistics timers around `internalLog`. Logging of an arbitrary record is modelled by `InternalLog` itself.
- `OLogSegment` internals and record serialization are abstracted:
  - `readRecord` and the segment's own `getNextLSN` are not modelled;
  - `SegmentList.Next` takes the latter as a function parameter;
  - `logRecord` is reduced to its effect on the summary.
- Waiting on `segmentCreationComplete` is not modelled. The writer that would wait is reported as `Blocked`, and what it does after being woken is a new call.
- The `IOException` of `appendNewSegment` (wrapped into `OIOException`) and the `InterruptedException` of the wait come from I/O and threads.
- Locale-sensitive lower-casing and Unicode digits: `SegmentNames.Lower` is ASCII lower-casing, and `SegmentNames.ParseInt` accepts ASCII digits only.
- `WriteAheadLog.InternalLog`: does not model 64-bit overflow of `logSize` or of `order + 1` on rotation, because the integers are unbounded. The same holds for `WriteAheadLog.AppendNewSegment` and `WriteAheadLog.MoveLsnAfter` (`lsn.segment + 1`).
- `cutTill(null)`: `WriteAheadLog.CutTill` takes a non-null LSN. With a null
  argument the code throws a `NullPointerException` at the first comparison,
  unless there are no retention floors and a single segment, in which case it
  removes nothing. The model has no such input.
- `CutTillLimits.Insert`: does not model overflow of the `Integer` counter, because counts are unbounded.
- `CutTillLimits.AddCutTillLimit` and `CutTillLimits.RemoveCutTillLimit`: the compare-and-set retry loops are left out, because the model is sequential. Each call is a single atomic update.
- `WalCheckpoints.LogKeepsFileInStep`: assumes that the checksum rejects an all-zero slot and that the checkpoint LSN fits in two longs. Both facts come from outside the model (CRC-32 and Java `long`).

=== FILE: cut_till_limits.dfy ===
/** The retention floors of the log (`cutTillLimits`): a sorted map from LSN
    to a reference count, kept here as a list of entries sorted by LSN, which
    is what the skip-list map the log uses presents to `firstEntry`. */
module CutTillLimits {
  import opened Wrappers
  import opened Lsns

  /** One map entry: a retention floor and how many holders registered it. */
  datatype Limit = Limit(lsn: Lsn, count: nat)

  /** Why an update of the limits is refused. */
  datatype LimitError =
    | NullLimit      // a null LSN: NullPointerException
    | LimitNotAdded  // removing a floor nobody registered: IllegalArgumentException

  /** Keys strictly increase, so each key appears once. */
  predicate Sorted(ls: seq<Limit>) {
    forall i, j :: 0 <= i < j < |ls| ==> Less(ls[i].lsn, ls[j].lsn)
  }

  /** Every entry stands for at least one holder: the map never keeps a
      zero count. */
  predicate PositiveCounts(ls: seq<Limit>) {
    forall i :: 0 <= i < |ls| ==> ls[i].count > 0
  }

  predicate WellFormed(ls: seq<Limit>) {
    Sorted(ls) && PositiveCounts(ls)
  }

  /** The set of floors currently held. */
  function Keys(ls: seq<Limit>): set<Lsn> {
    set i | 0 <= i < |ls| :: ls[i].lsn
  }

  /** How many holders registered `lsn`; 0 when it is absent. */
  function Count(ls: seq<Limit>, lsn: Lsn): (n: nat)
    ensures n > 0 ==> lsn in Keys(ls)
    ensures PositiveCounts(ls) && lsn in Keys(ls) ==> n > 0
  {
    if |ls| == 0 then 0
    else if ls[0].lsn == lsn then ls[0].count
    else
      KeysCons(ls);
      Count(ls[1..], lsn)
  }

  /** Insert a fresh floor with count 1, or bump the count of an existing
      one, keeping the list sorted. */
  function Insert(ls: seq<Limit>, lsn: Lsn): (r: seq<Limit>)
    requires WellFormed(ls)
    ensures WellFormed(r)
    ensures Keys(r) == Keys(ls) + {lsn}
    ensures Count(r, lsn) == Count(ls, lsn) + 1
    ensures forall k :: k != lsn ==> Count(r, k) == Count(ls, k)
  {
    if |ls| == 0 then
      KeysCons([Limit(lsn, 1)]);
      [Limit(lsn, 1)]
    else if ls[0].lsn == lsn then
      Cons(Limit(lsn, ls[0].count + 1), ls[1..]);
      KeysCons(ls);
      [Limit(lsn, ls[0].count + 1)] + ls[1..]
    else if Less(lsn, ls[0].lsn) then
      Cons(Limit(lsn, 1), ls);
      ConsSorted(Limit(lsn, 1), ls);
      [Limit(lsn, 1)] + ls
    else
      var rest := Insert(ls[1..], lsn);
      KeysCons(ls);
      HeadBelowTail(ls);
      Cons(ls[0], rest);
      ConsSorted(ls[0], rest);
      [ls[0]] + rest
  }

  /** `addCutTillLimit`. */
  function AddCutTillLimit(ls: seq<Limit>, lsn: Option<Lsn>): (r: Result<seq<Limit>, LimitError>)
    requires WellFormed(ls)
    ensures lsn.None? <==> r == Err(NullLimit)
    ensures r.Ok? ==> WellFormed(r.value)
    ensures r.Ok? ==> Count(r.value, lsn.value) == Count(ls, lsn.value) + 1
    ensures r.Ok? ==> forall k :: k != lsn.value ==> Count(r.value, k) == Count(ls, k)
  {
    match lsn
    case None => Err(NullLimit)
    case Some(l) => Ok(Insert(ls, l))
  }

  /** Decrement the count of a registered floor, dropping the entry when it
      reaches zero. */
  function Decrement(ls: seq<Limit>, lsn: Lsn): (r: seq<Limit>)
    requires WellFormed(ls)
    requires Count(ls, lsn) > 0
    ensures WellFormed(r)
    ensures Count(r, lsn) == Count(ls, lsn) - 1
    ensures forall k :: k != lsn ==> Count(r, k) == Count(ls, k)
    ensures Keys(r) == if Count(ls, lsn) == 1 then Keys(ls) - {lsn} else Keys(ls)
  {
    KeysCons(ls);
    if ls[0].lsn == lsn then
      if ls[0].count == 1 then
        HeadNotInTail(ls);
        ls[1..]
      else
        Cons(Limit(lsn, ls[0].count - 1), ls[1..]);
        [Limit(lsn, ls[0].count - 1)] + ls[1..]
    else
      var rest := Decrement(ls[1..], lsn);
      HeadBelowTail(ls);
      Cons(ls[0], rest);
      ConsSorted(ls[0], rest);
      [ls[0]] + rest
  }

  /** `removeCutTillLimit`. */
  function RemoveCutTillLimit(ls: seq<Limit>, lsn: Option<Lsn>): (r: Result<seq<Limit>, LimitError>)
    requires WellFormed(ls)
    ensures lsn.None? <==> r == Err(NullLimit)
    ensures lsn.Some? ==> (r == Err(LimitNotAdded) <==> lsn.value !in Keys(ls))
    ensures r.Ok? ==> WellFormed(r.value)
    ensures r.Ok? ==> Count(r.value, lsn.value) == Count(ls, lsn.value) - 1
    ensures r.Ok? ==> forall k :: k != lsn.value ==> Count(r.value, k) == Count(ls, k)
    ensures r.Ok? ==> (lsn.value in Keys(r.value) <==> Count(ls, lsn.value) > 1)
  {
    match lsn
    case None => Err(NullLimit)
    case Some(l) =>
      if Count(ls, l) == 0 then Err(LimitNotAdded) else Ok(Decrement(ls, l))
  }

  /** The lowest floor: the key of `firstEntry()`. */
  function Lowest(ls: seq<Limit>): (r: Option<Lsn>)
    requires Sorted(ls)
    ensures r.None? <==> Keys(ls) == {}
    ensures r.Some? ==> r.value in Keys(ls) && forall k :: k in Keys(ls) ==> LessEq(r.value, k)
  {
    if |ls| == 0 then None
    else
      assert ls[0].lsn in Keys(ls);
      Some(ls[0].lsn)
  }

  /** The target `cutTill` actually uses: the requested LSN, lowered to the
      lowest floor when that floor is smaller. */
  function Clamp(ls: seq<Limit>, lsn: Lsn): (r: Lsn)
    requires Sorted(ls)
    ensures LessEq(r, lsn)
    ensures forall k :: k in Keys(ls) ==> LessEq(r, k)
    ensures r == lsn || r in Keys(ls)
  {
    match Lowest(ls)
    case None => lsn
    case Some(low) => if Less(low, lsn) then low else lsn
  }

  /** How `Keys`, `Count` and the well-formedness predicates see an entry
      put in front of a list. */
  lemma Cons(l: Limit, rest: seq<Limit>)
    ensures Keys([l] + rest) == {l.lsn} + Keys(rest)
    ensures forall k :: Count([l] + rest, k) == if l.lsn == k then l.count else Count(rest, k)
    ensures PositiveCounts([l] + rest) <==> l.count > 0 && PositiveCounts(rest)
  {
    var r := [l] + rest;
    assert r[1..] == rest;
    KeysCons(r);
    assert forall i :: 0 < i < |r| ==> r[i] == rest[i - 1];
  }

  /** An entry below every key of a sorted list may go in front of it. */
  lemma ConsSorted(l: Limit, rest: seq<Limit>)
    requires Sorted(rest)
    requires forall k :: k in Keys(rest) ==> Less(l.lsn, k)
    ensures Sorted([l] + rest)
  {
    var r := [l] + rest;
    forall i, j | 0 <= i < j < |r| ensures Less(r[i].lsn, r[j].lsn) {
      assert r[j] == rest[j - 1];
      assert rest[j - 1].lsn in Keys(rest);
      if i > 0 { assert r[i] == rest[i - 1]; }
    }
  }

  /** In a sorted list the head's key is below every other key. */
  lemma HeadBelowTail(ls: seq<Limit>)
    requires Sorted(ls) && |ls| > 0
    ensures Sorted(ls[1..])
    ensures forall k :: k in Keys(ls[1..]) ==> Less(ls[0].lsn, k)
  {
    forall k | k in Keys(ls[1..]) ensures Less(ls[0].lsn, k) {
      var i :| 0 <= i < |ls[1..]| && ls[1..][i].lsn == k;
      assert ls[1..][i] == ls[i + 1];
    }
  }

  /** Sortedness makes keys unique: the head's key is not repeated. */
  lemma HeadNotInTail(ls: seq<Limit>)
    requires Sorted(ls) && |ls| > 0
    ensures ls[0].lsn !in Keys(ls[1..])
  {
    forall i | 0 <= i < |ls[1..]| ensures ls[1..][i].lsn != ls[0].lsn {
      assert ls[1..][i] == ls[i + 1];
    }
  }

  lemma KeysCons(ls: seq<Limit>)
    requires |ls| > 0
    ensures Keys(ls) == {ls[0].lsn} + Keys(ls[1..])
  {
    forall k | k in Keys(ls) ensures k == ls[0].lsn || k in Keys(ls[1..]) {
      var i :| 0 <= i < |ls| && ls[i].lsn == k;
      if i > 0 { assert ls[1..][i - 1] == ls[i]; }
    }
    forall k | k in Keys(ls[1..]) ensures k in Keys(ls) {
      var i :| 0 <= i < |ls[1..]| && ls[1..][i].lsn == k;
      assert ls[1..][i] == ls[i + 1];
    }
  }

  /** A well-formed list is determined by its counts: two lists that agree
      on every count are the same list. This is what lets the limits be
      read as a counted multiset of LSNs. */
  lemma {:induction false} CountsDetermineList(a: seq<Limit>, b: seq<Limit>)
    requires WellFormed(a) && WellFormed(b)
    requires forall k :: Count(a, k) == Count(b, k)
    ensures a == b
    decreases |a| + |b|
  {
    if |a| == 0 {
      NoCountsEmpty(b);
    } else if |b| == 0 {
      NoCountsEmpty(a);
    } else {
      KeysCons(a);
      KeysCons(b);
      HeadBelowTail(a);
      HeadBelowTail(b);
      HeadNotInTail(a);
      HeadNotInTail(b);
      // The heads are the least keys of the same key set.
      assert a[0].lsn == b[0].lsn by {
        assert Count(b, a[0].lsn) > 0 && Count(a, b[0].lsn) > 0;
        HeadIsLeast(a, b[0].lsn);
        HeadIsLeast(b, a[0].lsn);
        LessTrichotomy(a[0].lsn, b[0].lsn);
      }
      forall k ensures Count(a[1..], k) == Count(b[1..], k) {
        if k != a[0].lsn {
          assert Count(a, k) == Count(a[1..], k);
          assert Count(b, k) == Count(b[1..], k);
        }
      }
      assert forall i :: 0 <= i < |a[1..]| ==> a[1..][i] == a[i + 1];
      assert forall i :: 0 <= i < |b[1..]| ==> b[1..][i] == b[i + 1];
      CountsDetermineList(a[1..], b[1..]);
      assert a == [a[0]] + a[1..] && b == [b[0]] + b[1..];
    }
  }

  /** A well-formed list in which every count is zero is empty. */
  lemma NoCountsEmpty(ls: seq<Limit>)
    requires WellFormed(ls)
    requires forall k :: Count(ls, k) == 0
    ensures |ls| == 0
  {
    if |ls| > 0 {
      KeysCons(ls);
      assert Count(ls, ls[0].lsn) > 0;
    }
  }

  /** In a sorted list the head's key is the least key. */
  lemma HeadIsLeast(ls: seq<Limit>, k: Lsn)
    requires Sorted(ls) && |ls| > 0 && k in Keys(ls)
    ensures LessEq(ls[0].lsn, k)
  {
    KeysCons(ls);
    HeadBelowTail(ls);
  }

  /** `removeCutTillLimit` undoes `addCutTillLimit` exactly. */
  lemma RemoveUndoesAdd(ls: seq<Limit>, lsn: Lsn)
    requires WellFormed(ls)
    ensures AddCutTillLimit(ls, Some(lsn)).Ok?
    ensures RemoveCutTillLimit(AddCutTillLimit(ls, Some(lsn)).value, Some(lsn)) == Ok(ls)
  {
    var added := AddCutTillLimit(ls, Some(lsn)).value;
    var removed := RemoveCutTillLimit(added, Some(lsn));
    assert removed.Ok?;
    CountsDetermineList(removed.value, ls);
  }

  /** Adding commutes: the limits do not remember the order in which the
      floors were registered. */
  lemma AddCommutes(ls: seq<Limit>, x: Lsn, y: Lsn)
    requires WellFormed(ls)
    ensures Insert(Insert(ls, x), y) == Insert(Insert(ls, y), x)
  {
    CountsDetermineList(Insert(Insert(ls, x), y), Insert(Insert(ls, y), x));
  }

  /** `addCutTillLimit(lsn)` called `n` times in a row. */
  function AddTimes(ls: seq<Limit>, lsn: Lsn, n: nat): (r: seq<Limit>)
    requires WellFormed(ls)
    ensures WellFormed(r)
    ensures Count(r, lsn) == Count(ls, lsn) + n
    ensures forall k :: k != lsn ==> Count(r, k) == Count(ls, k)
  {
    if n == 0 then ls else Insert(AddTimes(ls, lsn, n - 1), lsn)
  }

  /** `removeCutTillLimit(lsn)` called `n` times in a row, stopping at the
      first exception. */
  function RemoveTimes(ls: seq<Limit>, lsn: Lsn, n: nat): (r: Result<seq<Limit>, LimitError>)
    requires WellFormed(ls)
    ensures r.Ok? <==> Count(ls, lsn) >= n
    ensures r.Err? ==> r.error == LimitNotAdded
    ensures r.Ok? ==> WellFormed(r.value) && Count(r.value, lsn) == Count(ls, lsn) - n
    ensures r.Ok? ==> forall k :: k != lsn ==> Count(r.value, k) == Count(ls, k)
    decreases n
  {
    if n == 0 then Ok(ls)
    else match RemoveCutTillLimit(ls, Some(lsn))
      case Err(e) => Err(e)
      case Ok(rest) => RemoveTimes(rest, lsn, n - 1)
  }

  /** `n` removals undo `n` additions of the same LSN; in particular an LSN
      that was absent is absent again afterwards. */
  lemma RemovesUndoAdds(ls: seq<Limit>, lsn: Lsn, n: nat)
    requires WellFormed(ls)
    ensures RemoveTimes(AddTimes(ls, lsn, n), lsn, n) == Ok(ls)
  {
    var back := RemoveTimes(AddTimes(ls, lsn, n), lsn, n);
    assert back.Ok?;
    CountsDetermineList(back.value, ls);
  }
}

=== FILE: java_ints.dfy ===
/** Java's fixed-width integers over Dafny's unbounded `int`: range
    predicates and the two's-complement narrowing a cast performs. */
module JavaInts {

  const TwoTo32: int := 0x1_0000_0000
  const TwoTo64: int := 0x1_0000_0000_0000_0000

  /** `x` fits in a Java `int`. */
  predicate IsInt32(x: int) {
    -0x8000_0000 <= x < 0x8000_0000
  }

  /** `x` fits in a Java `long`. */
  predicate IsInt64(x: int) {
    -0x8000_0000_0000_0000 <= x < 0x8000_0000_0000_0000
  }

  /** A cast to `int`: keeps the low 32 bits, read as two's complement. */
  function ToInt32(x: int): (r: int)
    ensures IsInt32(r)
    ensures (r - x) % TwoTo32 == 0
    ensures IsInt32(x) ==> r == x
  {
    var m := x % TwoTo32;
    if m >= 0x8000_0000 then m - TwoTo32 else m
  }

  /** A cast to `long`: keeps the low 64 bits, read as two's complement. */
  function ToInt64(x: int): (r: int)
    ensures IsInt64(r)
    ensures (r - x) % TwoTo64 == 0
    ensures IsInt64(x) ==> r == x
  {
    var m := x % TwoTo64;
    if m >= 0x8000_0000_0000_0000 then m - TwoTo64 else m
  }

  /** The cast depends only on the low 32 bits of its argument. */
  lemma ToInt32OfResidue(x: int)
    ensures ToInt32(x % TwoTo32) == ToInt32(x)
  {
  }
}

=== FILE: lsn.dfy ===
/** Log sequence numbers: a (segment, position) pair ordered segment-major,
    position-minor, as the write-ahead log compares them. */
module Lsns {

  /** `segment` is the order of the log segment holding the record and
      `position` its offset inside that segment. Both are Java longs in the
      original; they are unbounded here (see MasterRecord for the 64-bit
      encoding). */
  datatype Lsn = Lsn(segment: int, position: int)

  /** Strict lexicographic order: the `compareTo(...) < 0` of the log. */
  predicate Less(a: Lsn, b: Lsn) {
    a.segment < b.segment || (a.segment == b.segment && a.position < b.position)
  }

  /** `compareTo(...) <= 0`. */
  predicate LessEq(a: Lsn, b: Lsn) {
    Less(a, b) || a == b
  }

  lemma LessTrichotomy(a: Lsn, b: Lsn)
    ensures Less(a, b) || a == b || Less(b, a)
    ensures !(Less(a, b) && Less(b, a))
    ensures !Less(a, a)
  {
  }
}

=== FILE: master_record.dfy ===
/** The master-record side file (`.wmr`): two fixed 20-byte slots, each a
    CRC-32 followed by the checkpoint LSN as two big-endian longs. The CRC
    is a parameter: every statement here holds for any checksum function,
    in particular for CRC-32 of ISO 3309 / ITU-T V.42. */
module MasterRecord {
  import opened Wrappers
  import opened Lsns
  import opened JavaInts

  type byte = x: int | 0 <= x < 256

  /** The value `CRC32.getValue()` returns: an unsigned 32-bit number. */
  type Checksum = x: int | 0 <= x < 0x1_0000_0000

  /** Slot size: one int (the CRC) and two longs (segment, position). */
  const SlotSize: nat := 20

  function Pow256(k: nat): (p: nat)
    ensures p > 0
  {
    if k == 0 then 1 else 256 * Pow256(k - 1)
  }

  /** The low `k` bytes of `n`, most significant first. */
  function BigEndian(n: nat, k: nat): (r: seq<byte>)
    ensures |r| == k
  {
    if k == 0 then [] else BigEndian(n / 256, k - 1) + [n % 256]
  }

  /** The unsigned number a big-endian byte string denotes. */
  function FromBigEndian(b: seq<byte>): (n: nat)
    ensures n < Pow256(|b|)
  {
    if |b| == 0 then 0 else FromBigEndian(b[..|b| - 1]) * 256 + b[|b| - 1]
  }

  /** `serializeLiteral` of an int: four bytes, big-endian two's complement. */
  function IntBytes(x: int): (r: seq<byte>)
    ensures |r| == 4
  {
    BigEndian(x % TwoTo32, 4)
  }

  /** `serializeLiteral` of a long: eight bytes, big-endian two's complement. */
  function LongBytes(x: int): (r: seq<byte>)
    ensures |r| == 8
  {
    BigEndian(x % TwoTo64, 8)
  }

  /** `RandomAccessFile.readInt` over four bytes. */
  function ReadInt(b: seq<byte>): (x: int)
    requires |b| == 4
    ensures IsInt32(x)
  {
    ToInt32(FromBigEndian(b))
  }

  /** `RandomAccessFile.readLong` over eight bytes. */
  function ReadLong(b: seq<byte>): (x: int)
    requires |b| == 8
    ensures IsInt64(x)
  {
    ToInt64(FromBigEndian(b))
  }

  /** The 16 bytes the CRC is computed over: segment then position. */
  function Payload(lsn: Lsn): (r: seq<byte>)
    ensures |r| == 16
  {
    LongBytes(lsn.segment) + LongBytes(lsn.position)
  }

  /** `writeMasterRecord`'s record: the CRC, cast to `int`, then the
      payload. */
  function EncodeSlot(lsn: Lsn, crc: seq<byte> -> Checksum): (r: seq<byte>)
    ensures |r| == SlotSize
    ensures r[4..] == Payload(lsn)
  {
    IntBytes(ToInt32(crc(Payload(lsn)))) + Payload(lsn)
  }

  /** `readMasterRecord` once the 20 bytes are read: the two longs are
      re-serialized, checksummed and compared with the stored int; a
      mismatch yields null. */
  function DecodeSlot(b: seq<byte>, crc: seq<byte> -> Checksum): (r: Option<Lsn>)
    requires |b| == SlotSize
    ensures r.Some? ==> IsInt64(r.value.segment) && IsInt64(r.value.position)
    ensures r.Some? ==> ReadInt(b[..4]) == ToInt32(crc(Payload(r.value)))
  {
    var stored := ReadInt(b[..4]);
    var lsn := Lsn(ReadLong(b[4..12]), ReadLong(b[12..20]));
    if stored != ToInt32(crc(Payload(lsn))) then None else Some(lsn)
  }

  /** `readMasterRecord(index)`: a slot that lies (partly) past the end of
      the file hits end-of-file and yields null. */
  function ReadSlot(file: seq<byte>, index: nat, crc: seq<byte> -> Checksum): (r: Option<Lsn>)
    ensures |file| < index * SlotSize + SlotSize ==> r.None?
    ensures r.Some? ==> IsInt64(r.value.segment) && IsInt64(r.value.position)
  {
    var offset := index * SlotSize;
    if |file| < offset + SlotSize then None
    else DecodeSlot(file[offset..offset + SlotSize], crc)
  }

  function Zeros(n: nat): (r: seq<byte>)
    ensures |r| == n && forall i :: 0 <= i < n ==> r[i] == 0
  {
    seq(n, _ => 0)
  }

  /** `writeMasterRecord(index)`: seek to the slot and write 20 bytes,
      growing the file when needed (a gap before the slot reads as zeros). */
  function WriteSlot(file: seq<byte>, index: nat, lsn: Lsn, crc: seq<byte> -> Checksum): (r: seq<byte>)
    ensures |r| == if |file| > index * SlotSize + SlotSize then |file| else index * SlotSize + SlotSize
    ensures r[index * SlotSize..index * SlotSize + SlotSize] == EncodeSlot(lsn, crc)
    ensures |file| >= index * SlotSize ==> r[..index * SlotSize] == file[..index * SlotSize]
    ensures |file| > index * SlotSize + SlotSize ==>
              r[index * SlotSize + SlotSize..] == file[index * SlotSize + SlotSize..]
    ensures forall k :: 0 <= k < |file| && !(index * SlotSize <= k < index * SlotSize + SlotSize) ==> r[k] == file[k]
  {
    var offset := index * SlotSize;
    var before := if |file| >= offset then file[..offset] else file + Zeros(offset - |file|);
    var after := if |file| > offset + SlotSize then file[offset + SlotSize..] else [];
    before + EncodeSlot(lsn, crc) + after
  }

  /** A side effect of the log on the master-record file. */
  datatype MasterIo =
    | WriteMaster(slot: nat, lsn: Lsn)  // writeMasterRecord(slot, lsn)
    | Clear                              // setLength(0) followed by a sync

  /** The file after a sequence of master-record effects. */
  function Apply(file: seq<byte>, io: seq<MasterIo>, crc: seq<byte> -> Checksum): seq<byte>
    decreases |io|
  {
    if |io| == 0 then file
    else
      var next := match io[0]
        case Clear => []
        case WriteMaster(slot, lsn) => WriteSlot(file, slot, lsn, crc);
      Apply(next, io[1..], crc)
  }

  lemma {:induction false} FromBigEndianOfBigEndian(n: nat, k: nat)
    requires n < Pow256(k)
    ensures FromBigEndian(BigEndian(n, k)) == n
  {
    if k > 0 {
      DivMod256(n, Pow256(k - 1));
      FromBigEndianOfBigEndian(n / 256, k - 1);
      LastDigit(BigEndian(n, k), BigEndian(n / 256, k - 1), n % 256);
    }
  }

  /** The value of a byte string with one more byte appended. */
  lemma LastDigit(b: seq<byte>, prefix: seq<byte>, d: byte)
    requires b == prefix + [d]
    ensures FromBigEndian(b) == FromBigEndian(prefix) * 256 + d
  {
    assert b[..|b| - 1] == prefix;
  }

  /** Splitting off the last base-256 digit. */
  lemma DivMod256(n: nat, p: nat)
    requires n < 256 * p
    ensures n / 256 < p
    ensures (n / 256) * 256 + n % 256 == n
  {
  }

  lemma {:induction false} BigEndianOfFromBigEndian(b: seq<byte>)
    ensures BigEndian(FromBigEndian(b), |b|) == b
  {
    if |b| > 0 {
      var n := |b|;
      var prefix := b[..n - 1];
      BigEndianOfFromBigEndian(prefix);
      AppendDigit(FromBigEndian(prefix), b[n - 1]);
      assert b == prefix + [b[n - 1]];
    }
  }

  /** Appending a base-256 digit and splitting it off again. */
  lemma AppendDigit(q: nat, d: byte)
    ensures (q * 256 + d) / 256 == q && (q * 256 + d) % 256 == d
  {
  }

  /** `readLong` undoes `serializeLiteral` on every long. */
  lemma LongRoundTrip(x: int)
    requires IsInt64(x)
    ensures ReadLong(LongBytes(x)) == x
  {
    assert Pow256(8) == TwoTo64;
    var m := x % TwoTo64;
    assert m == if x >= 0 then x else x + TwoTo64;
    FromBigEndianOfBigEndian(m, 8);
    assert FromBigEndian(LongBytes(x)) == m;
  }

  /** `readInt` undoes `serializeLiteral` of an `int` cast. */
  lemma IntRoundTrip(x: int)
    ensures ReadInt(IntBytes(x)) == ToInt32(x)
  {
    assert Pow256(4) == TwoTo32;
    FromBigEndianOfBigEndian(x % TwoTo32, 4);
    ToInt32OfResidue(x);
  }

  /** A written slot reads back as the LSN it was written with. */
  lemma SlotRoundTrip(lsn: Lsn, crc: seq<byte> -> Checksum)
    requires IsInt64(lsn.segment) && IsInt64(lsn.position)
    ensures DecodeSlot(EncodeSlot(lsn, crc), crc) == Some(lsn)
  {
    var b := EncodeSlot(lsn, crc);
    var c := ToInt32(crc(Payload(lsn)));
    assert b[..4] == IntBytes(c);
    assert b[4..12] == LongBytes(lsn.segment);
    assert b[12..20] == LongBytes(lsn.position);
    IntRoundTrip(c);
    LongRoundTrip(lsn.segment);
    LongRoundTrip(lsn.position);
  }

  /** Re-serializing a long read from eight bytes gives the same bytes. */
  lemma LongBytesOfReadLong(b: seq<byte>)
    requires |b| == 8
    ensures LongBytes(ReadLong(b)) == b
  {
    assert Pow256(8) == TwoTo64;
    var f := FromBigEndian(b);
    assert ReadLong(b) % TwoTo64 == f;
    BigEndianOfFromBigEndian(b);
  }

  /** Re-serializing an int read from four bytes gives the same bytes. */
  lemma IntBytesOfReadInt(b: seq<byte>)
    requires |b| == 4
    ensures IntBytes(ReadInt(b)) == b
  {
    assert Pow256(4) == TwoTo32;
    var f := FromBigEndian(b);
    assert ReadInt(b) % TwoTo32 == f;
    BigEndianOfFromBigEndian(b);
  }

  /** The converse: a slot passes the CRC check only if its 20 bytes are
      exactly the encoding of the LSN it yields. */
  lemma DecodedSlotIsEncoding(b: seq<byte>, crc: seq<byte> -> Checksum)
    requires |b| == SlotSize
    requires DecodeSlot(b, crc).Some?
    ensures b == EncodeSlot(DecodeSlot(b, crc).value, crc)
  {
    var lsn := DecodeSlot(b, crc).value;
    DecodedPayload(b, lsn);
    IntBytesOfReadInt(b[..4]);
    assert b == b[..4] + b[4..];
  }

  /** The payload of the LSN a slot's last 16 bytes denote is those bytes. */
  lemma DecodedPayload(b: seq<byte>, lsn: Lsn)
    requires |b| == SlotSize
    requires lsn == Lsn(ReadLong(b[4..12]), ReadLong(b[12..20]))
    ensures Payload(lsn) == b[4..]
  {
    LongBytesOfReadLong(b[4..12]);
    LongBytesOfReadLong(b[12..20]);
    assert b[4..] == b[4..12] + b[12..20];
  }

  /** Writing a slot and reading it back yields the LSN written. */
  lemma ReadAfterWrite(file: seq<byte>, index: nat, lsn: Lsn, crc: seq<byte> -> Checksum)
    requires IsInt64(lsn.segment) && IsInt64(lsn.position)
    ensures ReadSlot(WriteSlot(file, index, lsn, crc), index, crc) == Some(lsn)
  {
    SlotRoundTrip(lsn, crc);
  }

  /** Writing one slot never changes what another slot reads, provided that
      slot was already complete on disk or lies after the one written. */
  lemma WriteLeavesOtherSlot(file: seq<byte>, i: nat, j: nat, lsn: Lsn, crc: seq<byte> -> Checksum)
    requires i != j
    requires j > i || |file| >= j * SlotSize + SlotSize
    ensures ReadSlot(WriteSlot(file, i, lsn, crc), j, crc) == ReadSlot(file, j, crc)
  {
    var r := WriteSlot(file, i, lsn, crc);
    var lo, hi := j * SlotSize, j * SlotSize + SlotSize;
    if |file| >= hi && |r| >= hi {
      assert i < j ==> i * SlotSize + SlotSize <= lo;
      assert j < i ==> hi <= i * SlotSize;
      assert r[lo..hi] == file[lo..hi];
    }
  }
}

=== FILE: segment.dfy ===
/** Summary of one log segment file. The segment's own page layout, framing
    and background writer are not part of this model; the write-ahead log
    only sees the four values kept here. */
module Segments {
  import opened Wrappers
  import opened Lsns

  /** `order` is the segment number in its file name, `filledUpTo` the number
      of bytes written so far, `begin`/`end` the LSNs of its first and last
      record (`None` for a segment that holds no record). */
  datatype Segment = Segment(order: int, filledUpTo: nat, begin: Option<Lsn>, end: Option<Lsn>)

  /** Number of bytes a record occupies in a segment; never zero, since every
      record carries at least its framing. */
  type Footprint = n: int | n > 0 witness 1

  /** The shape every segment produced by the log has: empty exactly when it
      has no records, and its records lie inside it, in order. */
  predicate WellFormed(s: Segment) {
    && (s.filledUpTo == 0 <==> s.begin.None?)
    && (s.begin.None? <==> s.end.None?)
    && (s.begin.Some? ==>
          && s.begin.value.segment == s.order
          && s.end.value.segment == s.order
          && 0 <= s.begin.value.position
          && LessEq(s.begin.value, s.end.value)
          && s.end.value.position < s.filledUpTo)
  }

  /** A freshly created segment file: nothing written yet. */
  function NewSegment(order: int): (s: Segment)
    ensures WellFormed(s)
    ensures s.order == order && s.filledUpTo == 0
  {
    Segment(order, 0, None, None)
  }

  /** What appending one record to a segment produces. */
  datatype Appended = Appended(segment: Segment, lsn: Lsn)

  /** `logRecord`: the record is placed at the segment's current fill offset
      and the segment grows by the record's footprint. */
  function LogRecord(s: Segment, footprint: Footprint): (r: Appended)
    ensures r.lsn.segment == s.order && r.lsn.position == s.filledUpTo
    ensures r.segment.order == s.order
    ensures r.segment.filledUpTo == s.filledUpTo + footprint
    ensures r.segment.end == Some(r.lsn)
    ensures s.begin.Some? ==> r.segment.begin == s.begin
    ensures s.begin.None? ==> r.segment.begin == Some(r.lsn)
    ensures WellFormed(s) ==> WellFormed(r.segment)
    ensures WellFormed(s) && s.end.Some? ==> Less(s.end.value, r.lsn)
  {
    var lsn := Lsn(s.order, s.filledUpTo);
    var begin := if s.begin.None? then Some(lsn) else s.begin;
    Appended(Segment(s.order, s.filledUpTo + footprint, begin, Some(lsn)), lsn)
  }
}

=== FILE: segment_list.dfy ===
/** Queries over the ordered list of segments the write-ahead log owns:
    `begin`, `end`, the LSN-to-segment index arithmetic of `read` and `next`,
    and the log size. */
module SegmentList {
  import opened Wrappers
  import opened Lsns
  import opened Segments
  import opened JavaInts

  /** The list index `read`, `next` and `fixMasterRecords` compute for an
      LSN: its segment number minus the first segment's order, narrowed to
      an `int` by a cast. The 64-bit wrap of the subtraction is subsumed by
      the cast, since 2^32 divides 2^64. */
  function SegmentIndex(segs: seq<Segment>, lsn: Lsn): int
    requires |segs| > 0
  {
    ToInt32(lsn.segment - segs[0].order)
  }

  /** Which segment `read(lsn)` asks for the record: `None` when the index
      falls outside the list, in which case `read` returns null. */
  function ReadIndex(segs: seq<Segment>, lsn: Lsn): (r: Option<nat>)
    requires |segs| > 0
    ensures r.Some? ==> r.value < |segs| && r.value == SegmentIndex(segs, lsn)
    ensures r.None? <==> !(0 <= SegmentIndex(segs, lsn) < |segs|)
  {
    var index := SegmentIndex(segs, lsn);
    if index < 0 || index >= |segs| then None else Some(index)
  }

  /** Segment `i` is the first one that holds any bytes. */
  predicate FirstFilledAt(segs: seq<Segment>, i: int) {
    && 0 <= i < |segs|
    && segs[i].filledUpTo > 0
    && forall j :: 0 <= j < i ==> segs[j].filledUpTo == 0
  }

  /** Segment `i` is the last one that holds any bytes. */
  predicate LastFilledAt(segs: seq<Segment>, i: int) {
    && 0 <= i < |segs|
    && segs[i].filledUpTo > 0
    && forall j :: i < j < |segs| ==> segs[j].filledUpTo == 0
  }

  /** `begin()`: the first LSN of the first segment that holds any bytes. */
  function Begin(segs: seq<Segment>): (r: Option<Lsn>)
    requires |segs| > 0
    ensures (forall j :: 0 <= j < |segs| ==> segs[j].filledUpTo == 0) ==> r.None?
    ensures forall i :: FirstFilledAt(segs, i) ==> r == segs[i].begin
  {
    if segs[0].filledUpTo > 0 then segs[0].begin
    else if |segs| == 1 then None
    else
      var r := Begin(segs[1..]);
      assert forall i :: 1 <= i < |segs| ==> segs[1..][i - 1] == segs[i];
      r
  }

  /** `end()`: the last LSN of the last segment that holds any bytes. */
  function End(segs: seq<Segment>): (r: Option<Lsn>)
    requires |segs| > 0
    ensures (forall j :: 0 <= j < |segs| ==> segs[j].filledUpTo == 0) ==> r.None?
    ensures forall i :: LastFilledAt(segs, i) ==> r == segs[i].end
  {
    var last := |segs| - 1;
    if segs[last].filledUpTo > 0 then segs[last].end
    else if last == 0 then None
    else End(segs[..last])
  }

  /** The scan `next` performs once the current segment has no further
      record: the first LSN of the first segment from `i` on that holds
      bytes and reports a first record. */
  function NextFrom(segs: seq<Segment>, i: nat): (r: Option<Lsn>)
    requires i <= |segs|
    ensures r.Some? ==> exists j :: i <= j < |segs| && segs[j].filledUpTo > 0 && segs[j].begin == r
    ensures r.None? ==> forall j :: i <= j < |segs| ==> segs[j].filledUpTo == 0 || segs[j].begin.None?
    decreases |segs| - i
  {
    if i == |segs| then None
    else if segs[i].filledUpTo > 0 && segs[i].begin.Some? then segs[i].begin
    else NextFrom(segs, i + 1)
  }

  /** `next(lsn)`: `nextInSegment` stands for the segment's own
      `getNextLSN`, which this model does not look inside. */
  function Next(segs: seq<Segment>, lsn: Lsn, nextInSegment: (Segment, Lsn) -> Option<Lsn>): (r: Option<Lsn>)
    requires |segs| > 0
    ensures ReadIndex(segs, lsn).None? ==> r.None?
    ensures ReadIndex(segs, lsn).Some? && nextInSegment(segs[ReadIndex(segs, lsn).value], lsn).Some? ==>
              r == nextInSegment(segs[ReadIndex(segs, lsn).value], lsn)
    ensures ReadIndex(segs, lsn).Some? && nextInSegment(segs[ReadIndex(segs, lsn).value], lsn).None? ==>
              r == NextFrom(segs, ReadIndex(segs, lsn).value + 1)
  {
    match ReadIndex(segs, lsn)
    case None => None
    case Some(index) =>
      var inSegment := nextInSegment(segs[index], lsn);
      if inSegment.Some? then inSegment else NextFrom(segs, index + 1)
  }

  /** Sum of `filledUpTo` over the list: the value `logSize` must have. */
  function TotalFilled(segs: seq<Segment>): nat
  {
    if |segs| == 0 then 0 else TotalFilled(segs[..|segs| - 1]) + segs[|segs| - 1].filledUpTo
  }

  /** `recalculateLogSize`: the loop over all segments summing their
      filled sizes. */
  method RecalculateLogSize(segs: seq<Segment>) returns (size: nat)
    ensures size == TotalFilled(segs)
    ensures (forall i :: 0 <= i < |segs| ==> segs[i].filledUpTo == 0) <==> size == 0
  {
    size := 0;
    var i := 0;
    while i < |segs|
      invariant 0 <= i <= |segs|
      invariant size == TotalFilled(segs[..i])
      invariant (forall j :: 0 <= j < i ==> segs[j].filledUpTo == 0) <==> size == 0
    {
      assert segs[..i + 1][..i] == segs[..i];
      size := size + segs[i].filledUpTo;
      i := i + 1;
    }
    assert segs[..i] == segs;
  }

  predicate AllWellFormed(segs: seq<Segment>) {
    forall i :: 0 <= i < |segs| ==> WellFormed(segs[i])
  }

  /** Segment orders strictly increase along the list. */
  predicate OrdersIncreasing(segs: seq<Segment>) {
    forall i, j :: 0 <= i < j < |segs| ==> segs[i].order < segs[j].order
  }

  /** Segment orders have no gaps: the assumption behind the index
      arithmetic of `read`, `next` and `fixMasterRecords`. */
  predicate Consecutive(segs: seq<Segment>) {
    forall i :: 0 <= i < |segs| ==> segs[i].order == segs[0].order + i
  }

  /** Every segment except the tail holds at least one record. */
  predicate NonTailFilled(segs: seq<Segment>) {
    forall i :: 0 <= i < |segs| - 1 ==> segs[i].filledUpTo > 0
  }

  /** Under the log's invariants `end()` is the greatest LSN the list
      holds: no segment ends after it. */
  lemma EndIsGreatest(segs: seq<Segment>, i: int)
    requires |segs| > 0 && AllWellFormed(segs) && OrdersIncreasing(segs)
    requires 0 <= i < |segs| && segs[i].end.Some?
    ensures End(segs).Some? && LessEq(segs[i].end.value, End(segs).value)
  {
    assert WellFormed(segs[i]);
    var last := LastFilledFrom(segs, |segs|, i);
    assert WellFormed(segs[last]);
    if i < last {
      assert segs[i].order < segs[last].order;
    }
  }

  /** The last segment below `hi` that holds bytes, given that segment `i`
      below `hi` does and none from `hi` on does. */
  function LastFilledFrom(segs: seq<Segment>, hi: nat, i: nat): (r: nat)
    requires i < hi <= |segs| && segs[i].filledUpTo > 0
    requires forall j :: hi <= j < |segs| ==> segs[j].filledUpTo == 0
    ensures i <= r && LastFilledAt(segs, r)
    decreases hi
  {
    if segs[hi - 1].filledUpTo > 0 then hi - 1 else LastFilledFrom(segs, hi - 1, i)
  }

  /** Under the log's invariants `begin()` is the least LSN the list
      holds: no segment begins before it. */
  lemma {:induction false} BeginIsLeast(segs: seq<Segment>, i: int)
    requires |segs| > 0 && AllWellFormed(segs) && OrdersIncreasing(segs)
    requires 0 <= i < |segs| && segs[i].begin.Some?
    ensures Begin(segs).Some? && LessEq(Begin(segs).value, segs[i].begin.value)
  {
    assert WellFormed(segs[i]) && WellFormed(segs[0]);
    if segs[0].filledUpTo == 0 {
      var rest := segs[1..];
      assert forall j :: 0 <= j < |rest| ==> rest[j] == segs[j + 1];
      BeginIsLeast(rest, i - 1);
    }
  }

  /** The scan `next` performs is `begin()` of the remaining segments. */
  lemma {:induction false} NextFromIsBegin(segs: seq<Segment>, i: nat)
    requires AllWellFormed(segs)
    requires i < |segs|
    ensures NextFrom(segs, i) == Begin(segs[i..])
    decreases |segs| - i
  {
    assert WellFormed(segs[i]);
    if segs[i].filledUpTo == 0 && i + 1 < |segs| {
      assert segs[i..][1..] == segs[i + 1..];
      NextFromIsBegin(segs, i + 1);
    }
  }

  /** When the LSN's own segment has nothing after it, `next` moves on to
      the first record of the later segments, or returns null after the
      last segment. */
  lemma NextAfterSegment(segs: seq<Segment>, lsn: Lsn, nextInSegment: (Segment, Lsn) -> Option<Lsn>)
    requires AllWellFormed(segs)
    requires |segs| > 0 && ReadIndex(segs, lsn).Some?
    requires nextInSegment(segs[ReadIndex(segs, lsn).value], lsn).None?
    ensures ReadIndex(segs, lsn).value + 1 < |segs| ==>
              Next(segs, lsn, nextInSegment) == Begin(segs[ReadIndex(segs, lsn).value + 1..])
    ensures ReadIndex(segs, lsn).value + 1 == |segs| ==> Next(segs, lsn, nextInSegment).None?
  {
    var index := ReadIndex(segs, lsn).value;
    if index + 1 < |segs| {
      NextFromIsBegin(segs, index + 1);
    }
  }

  /** With gap-free orders and no wrap of the cast, `read` finds exactly
      the segment whose order is the LSN's segment number. */
  lemma ReadIndexFindsSegment(segs: seq<Segment>, lsn: Lsn)
    requires |segs| > 0 && Consecutive(segs)
    requires IsInt32(lsn.segment - segs[0].order)
    ensures ReadIndex(segs, lsn).Some? <==> exists i :: 0 <= i < |segs| && segs[i].order == lsn.segment
    ensures ReadIndex(segs, lsn).Some? ==> segs[ReadIndex(segs, lsn).value].order == lsn.segment
  {
    if exists i :: 0 <= i < |segs| && segs[i].order == lsn.segment {
      var i :| 0 <= i < |segs| && segs[i].order == lsn.segment;
      assert SegmentIndex(segs, lsn) == i;
    }
    if ReadIndex(segs, lsn).Some? {
      var k := ReadIndex(segs, lsn).value;
      assert segs[k].order == segs[0].order + k == lsn.segment;
    }
  }

  /** The `(int)` cast wraps: an LSN 2^32 segments past the first segment
      is looked up in the first segment. */
  lemma ReadIndexWraps()
    ensures ReadIndex([NewSegment(0)], Lsn(TwoTo32, 0)) == Some(0)
    ensures [NewSegment(0)][0].order != TwoTo32
  {
  }

  /** The log size is additive over concatenation. */
  lemma {:induction false} TotalFilledConcat(a: seq<Segment>, b: seq<Segment>)
    ensures TotalFilled(a + b) == TotalFilled(a) + TotalFilled(b)
    decreases |b|
  {
    if |b| == 0 {
      assert a + b == a;
    } else {
      assert (a + b)[..|a + b| - 1] == a + b[..|b| - 1];
      TotalFilledConcat(a, b[..|b| - 1]);
    }
  }
}

=== FILE: segment_names.dfy ===
/** Segment file names `<storage>.<order>.wal` and the two filters that
    recognise them during directory discovery. Lower-casing is ASCII only
    and digits are ASCII only (see README). */
module SegmentNames {
  import opened Wrappers
  import opened JavaInts

  const WalExtension: string := ".wal"

  /** ASCII lower-casing of one character. */
  function LowerChar(c: char): (r: char)
    ensures 'A' <= c <= 'Z' ==> r == c - 'A' + 'a'
    ensures !('A' <= c <= 'Z') ==> r == c
  {
    if 'A' <= c <= 'Z' then c - 'A' + 'a' else c
  }

  /** `toLowerCase`, character by character. */
  function Lower(s: string): (r: string)
    ensures |r| == |s|
    ensures forall i :: 0 <= i < |s| ==> r[i] == LowerChar(s[i])
  {
    seq(|s|, i requires 0 <= i < |s| => LowerChar(s[i]))
  }

  predicate EndsWith(s: string, suffix: string) {
    |s| >= |suffix| && s[|s| - |suffix|..] == suffix
  }

  /** `s.indexOf(c, from)`: the first index at or after `from` holding `c`,
      or -1. */
  function IndexOf(s: string, c: char, from: nat): (r: int)
    ensures r == -1 || from <= r < |s|
    ensures r == -1 ==> forall k :: from <= k < |s| ==> s[k] != c
    ensures r >= 0 ==> s[r] == c && forall k :: from <= k < r ==> s[k] != c
    decreases |s| - from
  {
    if from >= |s| then -1
    else if s[from] == c then from
    else IndexOf(s, c, from + 1)
  }

  predicate NoDot(s: string) {
    forall k :: 0 <= k < |s| ==> s[k] != '.'
  }

  predicate IsDigit(c: char) {
    '0' <= c <= '9'
  }

  predicate AllDigits(s: string) {
    forall i :: 0 <= i < |s| ==> IsDigit(s[i])
  }

  /** The value of a string of decimal digits. */
  function DigitsValue(s: string): nat
    requires AllDigits(s)
  {
    if |s| == 0 then 0 else DigitsValue(s[..|s| - 1]) * 10 + (s[|s| - 1] - '0') as int
  }

  /** `Integer.parseInt(s)`: an optional sign followed by at least one
      digit, whose value fits in an `int`; `None` stands for the
      NumberFormatException. */
  function ParseInt(s: string): (r: Option<int>)
    ensures r.Some? ==> IsInt32(r.value)
    ensures r.Some? ==> |s| > 0
    ensures r.Some? ==> AllDigits(s) || ((s[0] == '-' || s[0] == '+') && |s| > 1 && AllDigits(s[1..]))
  {
    if |s| == 0 then None
    else if s[0] == '-' || s[0] == '+' then
      var digits := s[1..];
      if |digits| == 0 || !AllDigits(digits) then None
      else
        var magnitude: int := DigitsValue(digits);
        var v := if s[0] == '-' then -magnitude else magnitude;
        if IsInt32(v) then Some(v) else None
    else if !AllDigits(s) then None
    else if IsInt32(DigitsValue(s)) then Some(DigitsValue(s)) else None
  }

  function DigitChar(d: nat): char
    requires d < 10
  {
    '0' + d as char
  }

  /** Decimal digits of a natural number, without leading zeros. */
  function Digits(n: nat): (r: string)
    ensures |r| > 0 && AllDigits(r)
  {
    if n < 10 then [DigitChar(n)] else Digits(n / 10) + [DigitChar(n % 10)]
  }

  /** `Long.toString`: a minus sign for negative values, then the digits. */
  function DecimalString(n: int): (r: string)
    ensures |r| > 0
    ensures forall i :: 0 <= i < |r| ==> r[i] == '-' || IsDigit(r[i])
  {
    if n < 0 then "-" + Digits(-n) else Digits(n)
  }

  /** `getSegmentName(order)`. */
  function GetSegmentName(storageName: string, order: int): (r: string)
    ensures EndsWith(r, WalExtension)
    ensures |r| > |storageName| + 5
    ensures r[..|storageName|] == storageName && r[|storageName|] == '.'
  {
    storageName + "." + DecimalString(order) + WalExtension
  }

  /** The two parts both filters cut out of a lower-cased name: the text
      before the first dot and the text between the first and the second
      dot. `None` when the name does not end in ".wal" or its only dot is
      the extension's. */
  function SplitName(n: string): (r: Option<(string, string)>)
    ensures r.Some? <==> EndsWith(n, WalExtension) && IndexOf(n, '.', 0) != |n| - 4
    ensures r.Some? ==> NoDot(r.value.0) && NoDot(r.value.1)
    ensures r.Some? ==> |r.value.0| + |r.value.1| + 5 <= |n|
    ensures r.Some? ==> var (a, b) := r.value;
              && n[..|a|] == a && n[|a|] == '.'
              && n[|a| + 1..|a| + 1 + |b|] == b && n[|a| + 1 + |b|] == '.'
  {
    if !EndsWith(n, WalExtension) then None
    else
      assert n[|n| - 4] == '.';
      var start := IndexOf(n, '.', 0);
      if start == |n| - 4 then None
      else
        var end := IndexOf(n, '.', start + 1);
        Some((n[..start], n[start + 1..end]))
  }

  /** `validateSimpleName`: after lower-casing, the name ends in ".wal",
      its first dot is not the one of the extension, and the text between
      the first and the second dot parses as an `int`. */
  function ValidateSimpleName(name: string): (r: bool)
    ensures r ==> EndsWith(Lower(name), WalExtension)
  {
    match SplitName(Lower(name))
    case None => false
    case Some((_, order)) => ParseInt(order).Some?
  }

  /** `validateName`: in addition, the text before the first dot equals the
      lower-cased storage name. */
  function ValidateName(name: string, storageName: string): (r: bool)
    ensures r ==> ValidateSimpleName(name)
    ensures r ==> NoDot(Lower(storageName))
  {
    match SplitName(Lower(name))
    case None => false
    case Some((storage, order)) => Lower(storageName) == storage && ParseInt(order).Some?
  }

  lemma {:induction false} DigitsRoundTrip(n: nat)
    ensures DigitsValue(Digits(n)) == n
  {
    if n >= 10 {
      var d := Digits(n);
      assert d[..|d| - 1] == Digits(n / 10);
      DigitsRoundTrip(n / 10);
    }
  }

  /** `Integer.parseInt` reads back `Long.toString` exactly when the value
      fits in an `int`. */
  lemma ParseDecimalString(n: int)
    ensures ParseInt(DecimalString(n)) == if IsInt32(n) then Some(n) else None
  {
    if n < 0 {
      ParseNegative(-n);
    } else {
      var d := Digits(n);
      DigitsRoundTrip(n);
      assert IsDigit(d[0]);
      assert d[0] != '-' && d[0] != '+';
      assert ParseInt(d) == if IsInt32(DigitsValue(d)) then Some(DigitsValue(d)) else None;
    }
  }

  /** `Integer.parseInt` reads a non-empty digit string, bare or after a
      sign, as its decimal value, and fails exactly when that value does
      not fit in an `int`. */
  lemma ParseIntDigits(d: string)
    requires |d| > 0 && AllDigits(d)
    ensures ParseInt(d) == if IsInt32(DigitsValue(d)) then Some(DigitsValue(d)) else None
    ensures ParseInt("+" + d) == if IsInt32(DigitsValue(d)) then Some(DigitsValue(d)) else None
    ensures ParseInt("-" + d) == if IsInt32(-(DigitsValue(d) as int)) then Some(-(DigitsValue(d) as int)) else None
  {
    assert IsDigit(d[0]);
    ParseSigned('+', d);
    ParseSigned('-', d);
  }

  /** One sign of `ParseIntDigits`. */
  lemma ParseSigned(sign: char, d: string)
    requires sign == '+' || sign == '-'
    requires |d| > 0 && AllDigits(d)
    ensures var v := if sign == '-' then -(DigitsValue(d) as int) else DigitsValue(d);
            ParseInt([sign] + d) == if IsInt32(v) then Some(v) else None
  {
    var s := [sign] + d;
    assert s[0] == sign && s[1..] == d;
  }

  /** The negative half of `ParseDecimalString`. */
  lemma ParseNegative(m: nat)
    requires m > 0
    ensures ParseInt("-" + Digits(m)) == if IsInt32(-(m as int)) then Some(-(m as int)) else None
  {
    var d := Digits(m);
    var s := "-" + d;
    assert s[0] == '-' && s[1..] == d;
    DigitsRoundTrip(m);
    assert DigitsValue(s[1..]) == m;
  }

  /** Lower-casing leaves digits, the minus sign and ".wal" alone. */
  lemma LowerSegmentName(storageName: string, order: int)
    ensures Lower(GetSegmentName(storageName, order))
         == Lower(storageName) + "." + DecimalString(order) + WalExtension
  {
    var d := DecimalString(order);
    var t := "." + d + WalExtension;
    NoUpperAfterName(d);
    LowerSuffix(storageName, t);
    assert storageName + "." + d + WalExtension == storageName + t;
    assert Lower(storageName) + "." + d + WalExtension == Lower(storageName) + t;
  }

  /** The part of a segment name after the storage name has no upper-case
      letter. */
  lemma NoUpperAfterName(d: string)
    requires forall i :: 0 <= i < |d| ==> d[i] == '-' || IsDigit(d[i])
    ensures forall i :: 0 <= i < |"." + d + WalExtension| ==> !('A' <= ("." + d + WalExtension)[i] <= 'Z')
  {
  }

  /** Lower-casing a name followed by text without upper-case letters
      lower-cases only the name. */
  lemma LowerSuffix(a: string, t: string)
    requires forall i :: 0 <= i < |t| ==> !('A' <= t[i] <= 'Z')
    ensures Lower(a + t) == Lower(a) + t
  {
    var lhs, rhs := Lower(a + t), Lower(a) + t;
    forall i | 0 <= i < |a + t| ensures lhs[i] == rhs[i] {
      if i >= |a| {
        assert (a + t)[i] == t[i - |a|];
      }
    }
  }

  /** `indexOf` finds the first occurrence. */
  lemma IndexOfFirst(s: string, c: char, from: nat, p: nat)
    requires from <= p < |s| && s[p] == c
    requires forall k :: from <= k < p ==> s[k] != c
    ensures IndexOf(s, c, from) == p
  {
  }

  /** A name `a.b.wal` with dot-free `a` and `b` splits into `a` and `b`. */
  lemma SplitDotted(a: string, b: string)
    requires NoDot(a) && NoDot(b)
    ensures SplitName(a + "." + b + WalExtension) == Some((a, b))
  {
    assert a + "." + b + WalExtension == a + "." + b + "." + "wal";
    SplitParts(a, b, "wal");
  }

  /** A name `a.b.t` with dot-free `a` and `b`, ending in ".wal" with its
      first dot not the extension's, splits into `a` and `b`. */
  lemma SplitParts(a: string, b: string, t: string)
    requires NoDot(a) && NoDot(b)
    requires EndsWith(a + "." + b + "." + t, WalExtension)
    requires |a| != |a + "." + b + "." + t| - 4
    ensures SplitName(a + "." + b + "." + t) == Some((a, b))
  {
    var n := a + "." + b + "." + t;
    DotsOfName(a, b, t);
    IndexOfFirst(n, '.', 0, |a|);
    IndexOfFirst(n, '.', |a| + 1, |a| + 1 + |b|);
    PartsOfName(a, b, t);
  }

  /** Where the dots of `a.b.t` are, for dot-free `a` and `b`. */
  lemma DotsOfName(a: string, b: string, t: string)
    requires NoDot(a) && NoDot(b)
    ensures var n := a + "." + b + "." + t;
            && n[|a|] == '.' && n[|a| + 1 + |b|] == '.'
            && (forall i :: 0 <= i < |a| ==> n[i] != '.')
            && (forall i :: |a| + 1 <= i < |a| + 1 + |b| ==> n[i] != '.')
  {
    var n := a + "." + b + "." + t;
    assert forall i :: 0 <= i < |a| ==> n[i] == a[i];
    assert forall i :: |a| + 1 <= i < |a| + 1 + |b| ==> n[i] == b[i - |a| - 1];
  }

  /** The two parts of `a.b.t` cut out by position. */
  lemma PartsOfName(a: string, b: string, t: string)
    ensures var n := a + "." + b + "." + t;
            n[..|a|] == a && n[|a| + 1..|a| + 1 + |b|] == b
  {
    var n := a + "." + b + "." + t;
    assert n[..|a|] == a;
    assert n[|a| + 1..|a| + 1 + |b|] == b;
  }

  /** The parts `SplitName` returns, with the rest after the second dot,
      make up the whole name. */
  lemma SplitRebuilds(n: string)
    requires SplitName(n).Some?
    ensures var (a, b) := SplitName(n).value; n == a + "." + b + "." + n[|a| + |b| + 2..]
  {
    var (a, b) := SplitName(n).value;
    var t := n[|a| + |b| + 2..];
    var m := a + "." + b + "." + t;
    assert |m| == |n|;
    forall i | 0 <= i < |n| ensures n[i] == m[i] {
      if i < |a| {
        assert n[..|a|][i] == n[i];
      } else if |a| < i < |a| + 1 + |b| {
        assert n[|a| + 1..|a| + 1 + |b|][i - |a| - 1] == n[i];
      }
    }
  }

  /** `validateName` accepts exactly the names that, lower-cased, end in
      ".wal" and read `<storage>.<order>.<rest>` for the lower-cased,
      dot-free storage name and a dot-free order that parses as an `int`. */
  lemma ValidateNameIff(name: string, storageName: string)
    ensures ValidateName(name, storageName) <==>
              && EndsWith(Lower(name), WalExtension)
              && NoDot(Lower(storageName))
              && exists o, t :: Lower(name) == Lower(storageName) + "." + o + "." + t && NoDot(o) && ParseInt(o).Some?
  {
    var n, st := Lower(name), Lower(storageName);
    if ValidateName(name, storageName) {
      var (a, o) := SplitName(n).value;
      SplitRebuilds(n);
      assert n == st + "." + o + "." + n[|a| + |o| + 2..];
    }
    if && EndsWith(n, WalExtension) && NoDot(st)
       && exists o, t :: n == st + "." + o + "." + t && NoDot(o) && ParseInt(o).Some? {
      var o, t :| n == st + "." + o + "." + t && NoDot(o) && ParseInt(o).Some?;
      FirstDotBeforeExtension(st, o, t);
      SplitParts(st, o, t);
    }
  }

  /** `validateSimpleName` accepts exactly the names that, lower-cased, end
      in ".wal" and read `<storage>.<order>.<rest>` for some dot-free
      storage part and a dot-free order that parses as an `int`. */
  lemma ValidateSimpleNameIff(name: string)
    ensures ValidateSimpleName(name) <==>
              && EndsWith(Lower(name), WalExtension)
              && exists s, o, t :: Lower(name) == s + "." + o + "." + t && NoDot(s) && NoDot(o) && ParseInt(o).Some?
  {
    var n := Lower(name);
    if ValidateSimpleName(name) {
      var (a, o) := SplitName(n).value;
      SplitRebuilds(n);
      assert n == a + "." + o + "." + n[|a| + |o| + 2..];
    }
    if && EndsWith(n, WalExtension)
       && exists s, o, t :: n == s + "." + o + "." + t && NoDot(s) && NoDot(o) && ParseInt(o).Some? {
      var s, o, t :| n == s + "." + o + "." + t && NoDot(s) && NoDot(o) && ParseInt(o).Some?;
      FirstDotBeforeExtension(s, o, t);
      SplitParts(s, o, t);
    }
  }

  /** In `<storage>.<order>.<rest>` with a parsable order, the first dot is
      not the one of the extension: the order starts with a sign or a
      digit, never with the 'w' of "wal". */
  lemma FirstDotBeforeExtension(s: string, o: string, t: string)
    requires EndsWith(s + "." + o + "." + t, WalExtension)
    requires ParseInt(o).Some?
    ensures |s| != |s + "." + o + "." + t| - 4
  {
    var n := s + "." + o + "." + t;
    assert n[|s| + 1] == o[0] != 'w';
    assert n[|n| - 3] == n[|n| - 4..][1] == 'w';
  }

  /** The filters read back what `getSegmentName` wrote: for a dot-free
      storage name the split of the lower-cased name gives the lower-cased
      storage name and the decimal order, and the order parses back to
      itself when it fits in an `int`. */
  lemma SegmentNameReadsBack(storageName: string, order: int)
    requires NoDot(storageName)
    ensures SplitName(Lower(GetSegmentName(storageName, order)))
         == Some((Lower(storageName), DecimalString(order)))
    ensures ParseInt(DecimalString(order)) == if IsInt32(order) then Some(order) else None
  {
    var d := DecimalString(order);
    assert NoDot(d) by {
      assert forall i :: 0 <= i < |d| ==> d[i] == '-' || IsDigit(d[i]);
    }
    LowerSegmentName(storageName, order);
    SplitDotted(Lower(storageName), d);
    ParseDecimalString(order);
  }

  /** For a storage name without dots, `validateName` accepts the name
      `getSegmentName` produces exactly when the order fits in an `int`; so
      does `validateSimpleName`. */
  lemma SegmentNameAccepted(storageName: string, order: int)
    requires NoDot(storageName)
    ensures ValidateName(GetSegmentName(storageName, order), storageName) <==> IsInt32(order)
    ensures ValidateSimpleName(GetSegmentName(storageName, order)) <==> IsInt32(order)
  {
    var d := DecimalString(order);
    assert forall i :: 0 <= i < |d| ==> d[i] == '-' || IsDigit(d[i]);
    LowerSegmentName(storageName, order);
    SplitDotted(Lower(storageName), d);
    ParseDecimalString(order);
  }

  /** A storage name containing a dot never recognises its own segments:
      the first dot of the file name falls inside the storage name. */
  lemma DottedStorageNameRejected(storageName: string, order: int, p: nat)
    requires p < |storageName| && storageName[p] == '.'
    ensures !ValidateName(GetSegmentName(storageName, order), storageName)
  {
    assert Lower(storageName)[p] == '.';
  }
}

=== FILE: wal.dfy ===
/** The segment manager of the disk write-ahead log, as a state machine over
    segment summaries. Each public operation is a pure transition; the file
    system appears only as the master-record effects an operation returns
    and as the segment summaries it keeps. */
module WriteAheadLog {
  import opened Wrappers
  import opened Lsns
  import opened Segments
  import opened SegmentList
  import opened CutTillLimits
  import opened MasterRecord

  /** `MAX_LAST_TXS`. */
  const MaxLastTxs: nat := 16

  /** Atomic operation ids (`OOperationUnitId`) are only compared. */
  type OpId = int

  /** The record classes the log distinguishes. */
  datatype RecordKind =
    | AtomicStart(id: OpId)     // OAtomicUnitStartRecord
    | AtomicEnd(id: OpId)       // OAtomicUnitEndRecord
    | OperationUnit(id: OpId)   // any other OOperationUnitRecord
    | Plain                     // a record outside any atomic operation

  /** A record to log: its class, whether it moves the checkpoint
      (`isUpdateMasterRecord`), and how many bytes it takes in a segment. */
  datatype Record = Record(kind: RecordKind, updateMasterRecord: bool, footprint: Footprint)

  /** The limits fixed at construction (`maxSegmentSize`, `walSizeLimit`). */
  datatype Config = Config(maxSegmentSize: int, walSizeLimit: int)

  datatype Wal = Wal(
    config: Config,
    segments: seq<Segment>,
    logSize: int,
    activeOperations: set<OpId>,
    segmentCreationFlag: bool,
    lastTxs: seq<Lsn>,
    cutTillLimits: seq<Limit>,
    useFirstMasterRecord: bool,
    firstMasterRecord: Option<Lsn>,
    secondMasterRecord: Option<Lsn>,
    lastCheckpoint: Option<Lsn>)

  /** Exceptions the structural operations raise. */
  datatype WalError =
    | ActiveOperations  // OStorageException: atomic operations in progress
    | EmptyLog          // OStorageException: the log holds no record
    | NullEnd           // NullPointerException: a scanned segment has no end LSN

  /** Result of logging one record. `Blocked` is the caller parked on the
      segment-creation condition; `fullCheckpointRequested` is whether the
      full-checkpoint listeners were notified. */
  datatype LogOutcome =
    | Blocked
    | Logged(wal: Wal, lsn: Lsn, io: seq<MasterIo>, fullCheckpointRequested: bool)

  /** Result of `cutTill`. */
  datatype CutOutcome = CutOutcome(wal: Wal, removed: bool, io: seq<MasterIo>)

  /** The LSN the tail segment hands out next. */
  function NextLsn(segs: seq<Segment>): Lsn
    requires |segs| > 0
  {
    Lsn(segs[|segs| - 1].order, segs[|segs| - 1].filledUpTo)
  }

  predicate IsOperationUnit(k: RecordKind) {
    !k.Plain?
  }

  function UnitId(k: RecordKind): OpId
    requires IsOperationUnit(k)
  {
    match k
    case AtomicStart(id) => id
    case AtomicEnd(id) => id
    case OperationUnit(id) => id
  }

  /** A writer of a record of an atomic operation that is not yet active
      must wait while a segment rotation is pending. */
  predicate MustWait(w: Wal, rec: Record) {
    w.segmentCreationFlag && IsOperationUnit(rec.kind) && UnitId(rec.kind) !in w.activeOperations
  }

  /** The only records on which a pending rotation is carried out: an end
      record while exactly one operation is active (the one it ends, by the
      wrappers' protocol), or a record outside atomic operations while none
      is active. */
  predicate RotationAllowed(w: Wal, rec: Record) {
    (rec.kind.AtomicEnd? && |w.activeOperations| == 1)
    || (!IsOperationUnit(rec.kind) && w.activeOperations == {})
  }

  /** The bounded history of end-record LSNs: the size test runs before
      the append, so the list reaches `MaxLastTxs + 1` entries. */
  function PushLastTx(txs: seq<Lsn>, lsn: Lsn): (r: seq<Lsn>)
    ensures |r| > 0 && r[|r| - 1] == lsn
    ensures |txs| <= MaxLastTxs ==> r == txs + [lsn]
    ensures |txs| > MaxLastTxs ==> r == txs[1..] + [lsn]
  {
    if |txs| > MaxLastTxs then txs[1..] + [lsn] else txs + [lsn]
  }

  /** Store a checkpoint LSN in the slot that is due, and flip the slot. */
  function RecordCheckpoint(w: Wal, lsn: Lsn): (r: (Wal, seq<MasterIo>))
    ensures r.0.lastCheckpoint == Some(lsn)
    ensures r.0.useFirstMasterRecord == !w.useFirstMasterRecord
    ensures r.1 == [WriteMaster(if w.useFirstMasterRecord then 0 else 1, lsn)]
    ensures w.useFirstMasterRecord ==> r.0.firstMasterRecord == Some(lsn) && r.0.secondMasterRecord == w.secondMasterRecord
    ensures !w.useFirstMasterRecord ==> r.0.secondMasterRecord == Some(lsn) && r.0.firstMasterRecord == w.firstMasterRecord
    ensures r.0.(lastCheckpoint := w.lastCheckpoint, useFirstMasterRecord := w.useFirstMasterRecord,
                 firstMasterRecord := w.firstMasterRecord, secondMasterRecord := w.secondMasterRecord) == w
  {
    if w.useFirstMasterRecord then
      (w.(lastCheckpoint := Some(lsn), firstMasterRecord := Some(lsn), useFirstMasterRecord := false),
       [WriteMaster(0, lsn)])
    else
      (w.(lastCheckpoint := Some(lsn), secondMasterRecord := Some(lsn), useFirstMasterRecord := true),
       [WriteMaster(1, lsn)])
  }

  /** The segment list after a record is appended to the tail, with a new
      empty segment after it when the log rotates. */
  function GrowTail(segs: seq<Segment>, footprint: Footprint, rotate: bool): (r: seq<Segment>)
    requires |segs| > 0
    ensures |r| == if rotate then |segs| + 1 else |segs|
    ensures r[..|segs| - 1] == segs[..|segs| - 1]
    ensures r[|segs| - 1] == LogRecord(segs[|segs| - 1], footprint).segment
    ensures rotate ==> r[|segs|] == NewSegment(segs[|segs| - 1].order + 1)
  {
    var n := |segs|;
    var appended := LogRecord(segs[n - 1], footprint).segment;
    var r := segs[..n - 1] + [appended] + (if rotate then [NewSegment(appended.order + 1)] else []);
    assert r[..n - 1] == segs[..n - 1];
    r
  }

  /** `internalLog`: append a record to the tail segment, keep the
      checkpoint slots, the log size, the rotation state and the end-record
      history up to date. */
  function InternalLog(w: Wal, rec: Record): (r: LogOutcome)
    requires |w.segments| > 0
    ensures r.Blocked? <==> MustWait(w, rec)
    ensures r.Logged? ==> r.lsn == NextLsn(w.segments)
    ensures r.Logged? ==>
              var n := |w.segments|;
              var full := w.segments[n - 1].filledUpTo + rec.footprint >= w.config.maxSegmentSize;
              var rotate := full && RotationAllowed(w, rec);
              && |r.wal.segments| == (if rotate then n + 1 else n)
              && r.wal.segments[..n - 1] == w.segments[..n - 1]
              && r.wal.segments[n - 1] == LogRecord(w.segments[n - 1], rec.footprint).segment
              && (rotate ==> r.wal.segments[n] == NewSegment(w.segments[n - 1].order + 1))
              && r.wal.segmentCreationFlag == (if rotate then false else w.segmentCreationFlag || full)
    ensures r.Logged? ==> r.wal.logSize == w.logSize + rec.footprint
    ensures r.Logged? && rec.updateMasterRecord ==> (r.wal, r.io) == RecordCheckpoint(w, r.lsn).(0 := r.wal)
    ensures r.Logged? && rec.updateMasterRecord ==>
              r.wal.lastCheckpoint == Some(r.lsn) && r.io == [WriteMaster(if w.useFirstMasterRecord then 0 else 1, r.lsn)]
    ensures r.Logged? && !rec.updateMasterRecord ==>
              && r.io == []
              && r.wal.lastCheckpoint == w.lastCheckpoint
              && r.wal.useFirstMasterRecord == w.useFirstMasterRecord
              && r.wal.firstMasterRecord == w.firstMasterRecord
              && r.wal.secondMasterRecord == w.secondMasterRecord
    ensures r.Logged? ==> r.wal.lastTxs == if rec.kind.AtomicEnd? then PushLastTx(w.lastTxs, r.lsn) else w.lastTxs
    ensures r.Logged? ==>
              && r.wal.activeOperations == w.activeOperations
              && r.wal.cutTillLimits == w.cutTillLimits
              && r.wal.config == w.config
    ensures r.Logged? ==>
              r.fullCheckpointRequested == (r.wal.logSize > w.config.walSizeLimit && |r.wal.segments| > 1)
  {
    if MustWait(w, rec) then Blocked
    else
      var n := |w.segments|;
      var last := w.segments[n - 1];
      var appended := LogRecord(last, rec.footprint);
      var lsn := appended.lsn;
      var (w1, io) := if rec.updateMasterRecord then RecordCheckpoint(w, lsn) else (w, []);
      var size := w.logSize + (appended.segment.filledUpTo - last.filledUpTo);
      var full := appended.segment.filledUpTo >= w.config.maxSegmentSize;
      var rotate := full && RotationAllowed(w, rec);
      var segs := GrowTail(w.segments, rec.footprint, rotate);
      var flag := if rotate then false else w.segmentCreationFlag || full;
      var txs := if rec.kind.AtomicEnd? then PushLastTx(w.lastTxs, lsn) else w.lastTxs;
      var w2 := w1.(segments := segs, logSize := size, segmentCreationFlag := flag, lastTxs := txs);
      Logged(w2, lsn, io, size > w.config.walSizeLimit && |segs| > 1)
  }

  /** `logAtomicOperationStartRecord`: the operation becomes active only
      after its start record is logged. */
  function LogAtomicOperationStartRecord(w: Wal, id: OpId, footprint: Footprint): (r: LogOutcome)
    requires |w.segments| > 0
    ensures r.Blocked? <==> (w.segmentCreationFlag && id !in w.activeOperations)
    ensures r.Logged? ==> r.wal.activeOperations == w.activeOperations + {id}
    ensures r.Logged? ==> |r.wal.segments| == |w.segments|
    ensures r.Logged? ==> r.lsn == NextLsn(w.segments)
  {
    match InternalLog(w, Record(AtomicStart(id), false, footprint))
    case Blocked => Blocked
    case Logged(w1, lsn, io, full) =>
      Logged(w1.(activeOperations := w1.activeOperations + {id}), lsn, io, full)
  }

  /** `logAtomicOperationEndRecord`: the operation stops being active only
      after its end record is logged, so the rotation test sees it still
      counted. */
  function LogAtomicOperationEndRecord(w: Wal, id: OpId, footprint: Footprint): (r: LogOutcome)
    requires |w.segments| > 0
    ensures r.Blocked? <==> (w.segmentCreationFlag && id !in w.activeOperations)
    ensures r.Logged? ==> r.wal.activeOperations == w.activeOperations - {id}
    ensures r.Logged? ==> r.wal.lastTxs == PushLastTx(w.lastTxs, r.lsn)
    ensures r.Logged? ==> r.lsn == NextLsn(w.segments)
  {
    match InternalLog(w, Record(AtomicEnd(id), false, footprint))
    case Blocked => Blocked
    case Logged(w1, lsn, io, full) =>
      Logged(w1.(activeOperations := w1.activeOperations - {id}), lsn, io, full)
  }

  /** The public `appendNewSegment()`: start a new tail segment on request. */
  function AppendNewSegment(w: Wal): (r: Result<(Wal, bool), WalError>)
    requires |w.segments| > 0
    ensures r == Err(ActiveOperations) <==> w.activeOperations != {}
    ensures r.Ok? ==> r.value.0.(segments := w.segments) == w
    ensures r.Ok? && !r.value.1 ==> r.value.0 == w
    ensures r.Ok? ==> (r.value.1 <==> End(w.segments).Some? && w.segments[|w.segments| - 1].filledUpTo > 0)
    ensures r.Ok? && r.value.1 ==>
              r.value.0 == w.(segments := w.segments + [NewSegment(w.segments[|w.segments| - 1].order + 1)])
  {
    var last := w.segments[|w.segments| - 1];
    if w.activeOperations != {} then Err(ActiveOperations)
    else if End(w.segments).None? then Ok((w, false))
    else if last.filledUpTo == 0 then Ok((w, false))
    else Ok((w.(segments := w.segments + [NewSegment(last.order + 1)]), true))
  }

  /** `moveLsnAfter(lsn)`: make every later record land in a segment past
      `lsn`'s. An empty tail is dropped before the new one is added. */
  function MoveLsnAfter(w: Wal, lsn: Lsn): (r: Result<Wal, WalError>)
    requires |w.segments| > 0
    ensures r == Err(ActiveOperations) <==> w.activeOperations != {}
    ensures r == Err(EmptyLog) <==> w.activeOperations == {} && End(w.segments).None?
    ensures r.Ok? ==> r.value.(segments := w.segments) == w
    ensures r.Ok? && Less(lsn, End(w.segments).value) ==> r.value == w
    ensures r.Ok? && !Less(lsn, End(w.segments).value) ==>
              r.value == w.(segments := WithoutEmptyTail(w.segments) + [NewSegment(lsn.segment + 1)])
  {
    if w.activeOperations != {} then Err(ActiveOperations)
    else match End(w.segments)
      case None => Err(EmptyLog)
      case Some(end) =>
        if Less(lsn, end) then Ok(w)
        else Ok(w.(segments := WithoutEmptyTail(w.segments) + [NewSegment(lsn.segment + 1)]))
  }

  /** The list with its tail dropped when the tail is empty: what
      `moveLsnAfter` keeps before adding the new tail. */
  function WithoutEmptyTail(segs: seq<Segment>): (r: seq<Segment>)
    requires |segs| > 0
  {
    if segs[|segs| - 1].filledUpTo == 0 then segs[..|segs| - 1] else segs
  }

  /** `truncate()`: drop every segment but the tail. */
  function Truncate(w: Wal): (r: Wal)
    requires |w.segments| > 0
    ensures r.segments == if |w.segments| < 2 then w.segments else [w.segments[|w.segments| - 1]]
    ensures |w.segments| >= 2 ==> r.logSize == TotalFilled(r.segments)
    ensures |w.segments| < 2 ==> r == w
    ensures r.(segments := w.segments, logSize := w.logSize) == w
  {
    if |w.segments| < 2 then w
    else
      var tail := [w.segments[|w.segments| - 1]];
      w.(segments := tail, logSize := TotalFilled(tail))
  }

  /** The scan of `cutTill` over the non-tail segments: how many leading
      ones end strictly before `target`. A segment without an end LSN met
      before the scan stops makes `compareTo` throw. */
  function LeadingRun(nonTail: seq<Segment>, target: Lsn): (r: Result<nat, WalError>)
    ensures r.Ok? ==> r.value <= |nonTail|
    ensures r.Ok? ==> forall i :: 0 <= i < r.value ==>
              nonTail[i].end.Some? && Less(nonTail[i].end.value, target)
    ensures r.Ok? && r.value < |nonTail| ==>
              nonTail[r.value].end.Some? && !Less(nonTail[r.value].end.value, target)
    ensures r.Err? ==> r.error == NullEnd && exists i :: 0 <= i < |nonTail| && nonTail[i].end.None?
    ensures (forall i :: 0 <= i < |nonTail| ==> nonTail[i].end.Some?) ==> r.Ok?
  {
    if |nonTail| == 0 then Ok(0)
    else match nonTail[0].end
      case None => Err(NullEnd)
      case Some(end) =>
        if !Less(end, target) then Ok(0)
        else match LeadingRun(nonTail[1..], target)
          case Err(e) =>
            assert exists i :: 0 <= i < |nonTail[1..]| && nonTail[1..][i].end.None?;
            var i :| 0 <= i < |nonTail[1..]| && nonTail[1..][i].end.None?;
            assert nonTail[i + 1].end.None?;
            Err(e)
          case Ok(k) =>
            assert forall i :: 1 <= i < k + 1 ==> nonTail[i] == nonTail[1..][i - 1];
            Ok(k + 1)
  }

  /** A master slot keeps its LSN only while that LSN points inside a
      segment of the list (by the index arithmetic) and below its fill. */
  predicate PointsIntoLog(segs: seq<Segment>, lsn: Lsn)
    requires |segs| > 0
  {
    var index := SegmentIndex(segs, lsn);
    0 <= index < |segs| && lsn.position < segs[index].filledUpTo
  }

  function CheckSlot(segs: seq<Segment>, slot: Option<Lsn>): (r: Option<Lsn>)
    requires |segs| > 0
    ensures r.Some? <==> slot.Some? && PointsIntoLog(segs, slot.value)
    ensures r.Some? ==> r == slot
  {
    match slot
    case None => None
    case Some(lsn) =>
      var index := SegmentIndex(segs, lsn);
      if |segs| <= index || index < 0 then None
      else if segs[index].filledUpTo <= lsn.position then None
      else slot
  }

  /** `fixMasterRecords`: re-validate both slots against the segment list;
      a lone survivor is copied to both slots, and with no survivor the
      checkpoint is forgotten and the side file emptied. */
  function FixMasterRecords(w: Wal): (r: (Wal, seq<MasterIo>))
    requires |w.segments| > 0
    ensures r.0.firstMasterRecord.Some? ==> PointsIntoLog(w.segments, r.0.firstMasterRecord.value)
    ensures r.0.secondMasterRecord.Some? ==> PointsIntoLog(w.segments, r.0.secondMasterRecord.value)
    ensures r.0.(firstMasterRecord := w.firstMasterRecord, secondMasterRecord := w.secondMasterRecord,
                 lastCheckpoint := w.lastCheckpoint) == w
    ensures CheckSlot(w.segments, w.firstMasterRecord).Some? && CheckSlot(w.segments, w.secondMasterRecord).Some? ==>
              r == (w, [])
    ensures CheckSlot(w.segments, w.firstMasterRecord).None? && CheckSlot(w.segments, w.secondMasterRecord).None? ==>
              && r.0.firstMasterRecord.None? && r.0.secondMasterRecord.None? && r.0.lastCheckpoint.None?
              && r.1 == [Clear]
    ensures CheckSlot(w.segments, w.firstMasterRecord).Some? != CheckSlot(w.segments, w.secondMasterRecord).Some? ==>
              var survivor := if CheckSlot(w.segments, w.firstMasterRecord).Some? then w.firstMasterRecord
                              else w.secondMasterRecord;
              && r.0.firstMasterRecord == survivor
              && r.0.secondMasterRecord == survivor
              && r.0.lastCheckpoint == survivor
              && r.1 == [WriteMaster(0, survivor.value), WriteMaster(1, survivor.value)]
  {
    var first := CheckSlot(w.segments, w.firstMasterRecord);
    var second := CheckSlot(w.segments, w.secondMasterRecord);
    if first.Some? && second.Some? then (w, [])
    else if first.None? && second.None? then
      (w.(firstMasterRecord := None, secondMasterRecord := None, lastCheckpoint := None), [Clear])
    else
      var survivor := if second.None? then first else second;
      (w.(firstMasterRecord := survivor, secondMasterRecord := survivor, lastCheckpoint := survivor),
       [WriteMaster(0, survivor.value), WriteMaster(1, survivor.value)])
  }

  /** The segments `cutTill` keeps for a given target: everything from the
      first segment that does not end before the target on, and always the
      tail. */
  function CutSegments(segs: seq<Segment>, target: Lsn): (r: Result<seq<Segment>, WalError>)
    requires |segs| > 0
    ensures r.Err? ==> r.error == NullEnd
    ensures r.Ok? ==>
              var kept := r.value;
              && 0 < |kept| <= |segs|
              && kept == segs[|segs| - |kept|..]
              && (forall i :: 0 <= i < |segs| - |kept| ==> segs[i].end.Some? && Less(segs[i].end.value, target))
              && (|kept| > 1 ==> kept[0].end.Some? && !Less(kept[0].end.value, target))
  {
    var n := |segs|;
    match LeadingRun(segs[..n - 1], target)
    case Err(e) => Err(e)
    case Ok(k) =>
      assert forall i :: 0 <= i < k ==> segs[i] == segs[..n - 1][i];
      Ok(segs[k..])
  }

  /** `cutTill(lsn)`: delete the leading segments that end before the
      target, the target being `lsn` lowered to the lowest retention floor,
      then recompute the log size and re-validate the master slots. */
  function CutTill(w: Wal, lsn: Lsn): (r: Result<CutOutcome, WalError>)
    requires |w.segments| > 0
    requires Sorted(w.cutTillLimits)
    ensures r.Err? <==> CutSegments(w.segments, Clamp(w.cutTillLimits, lsn)).Err?
    ensures r.Err? ==> r.error == NullEnd
    ensures r.Ok? ==> CutSegments(w.segments, Clamp(w.cutTillLimits, lsn)) == Ok(r.value.wal.segments)
    ensures r.Ok? ==> (r.value.removed <==> |r.value.wal.segments| < |w.segments|)
    ensures r.Ok? ==> r.value.wal.logSize == TotalFilled(r.value.wal.segments)
    ensures r.Ok? ==> (r.value.wal, r.value.io) == FixMasterRecords(r.value.wal.(
                        firstMasterRecord := w.firstMasterRecord, secondMasterRecord := w.secondMasterRecord,
                        lastCheckpoint := w.lastCheckpoint))
    ensures r.Ok? ==> r.value.wal.(segments := w.segments, logSize := w.logSize, firstMasterRecord := w.firstMasterRecord,
                        secondMasterRecord := w.secondMasterRecord, lastCheckpoint := w.lastCheckpoint) == w
  {
    match CutSegments(w.segments, Clamp(w.cutTillLimits, lsn))
    case Err(e) => Err(e)
    case Ok(kept) =>
      var (w1, io) := FixMasterRecords(w.(segments := kept, logSize := TotalFilled(kept)));
      Ok(CutOutcome(w1, |kept| < |w.segments|, io))
  }

  /** The checkpoint chosen at startup from the two slots read back, and
      which slot the next checkpoint goes to. */
  function SelectCheckpoint(first: Option<Lsn>, second: Option<Lsn>): (r: (Option<Lsn>, bool))
    ensures r.0.None? <==> first.None? && second.None?
    ensures r.0.Some? ==> (first.Some? ==> LessEq(first.value, r.0.value)) && (second.Some? ==> LessEq(second.value, r.0.value))
    ensures r.0 == first || r.0 == second
    ensures !r.1 ==> r.0 == first && first.Some?
    ensures r.1 ==> r.0 == second
    ensures r.1 <==> first.None? || (second.Some? && Less(first.value, second.value))
  {
    if first.None? then (second, true)
    else if second.None? then (first, false)
    else if !Less(first.value, second.value) then (first, false)
    else (second, true)
  }

  /** A log over the given (already discovered and ordered) segments, or
      over a single empty segment 0 when none was found, before the master
      record is read. */
  function Initial(config: Config, discovered: seq<Segment>): (w: Wal)
    ensures |w.segments| > 0
    ensures |discovered| > 0 ==> w.segments == discovered
    ensures |discovered| == 0 ==> w.segments == [NewSegment(0)]
    ensures w.logSize == TotalFilled(w.segments)
    ensures w.activeOperations == {} && !w.segmentCreationFlag && w.lastTxs == [] && w.cutTillLimits == []
    ensures w.useFirstMasterRecord && w.firstMasterRecord.None? && w.secondMasterRecord.None? && w.lastCheckpoint.None?
  {
    var segs := if |discovered| == 0 then [NewSegment(0)] else discovered;
    Wal(config, segs, TotalFilled(segs), {}, false, [], [], true, None, None, None)
  }

  /** The master-record part of construction: read both slots of a
      non-empty side file, select the checkpoint, then re-validate. */
  function OpenMaster(w: Wal, file: seq<byte>, crc: seq<byte> -> Checksum): (r: (Wal, seq<MasterIo>))
    requires |w.segments| > 0
    ensures r.0.firstMasterRecord.Some? ==> PointsIntoLog(w.segments, r.0.firstMasterRecord.value)
    ensures r.0.secondMasterRecord.Some? ==> PointsIntoLog(w.segments, r.0.secondMasterRecord.value)
    ensures r.0.(firstMasterRecord := w.firstMasterRecord, secondMasterRecord := w.secondMasterRecord,
                 lastCheckpoint := w.lastCheckpoint, useFirstMasterRecord := w.useFirstMasterRecord) == w
    ensures |file| > 0 ==>
              var first := CheckSlot(w.segments, ReadSlot(file, 0, crc));
              var second := CheckSlot(w.segments, ReadSlot(file, 1, crc));
              && r.0.lastCheckpoint == SelectCheckpoint(first, second).0
              && r.0.useFirstMasterRecord == SelectCheckpoint(ReadSlot(file, 0, crc), ReadSlot(file, 1, crc)).1
              && (r.1 == [] <==> first.Some? && second.Some?)
              && (first.None? && second.None? ==> r.1 == [Clear])
    ensures |file| == 0 ==> r.0.useFirstMasterRecord == w.useFirstMasterRecord
    ensures |file| == 0 && w.firstMasterRecord.None? && w.secondMasterRecord.None? ==>
              && r.0.lastCheckpoint.None? && r.0.firstMasterRecord.None? && r.0.secondMasterRecord.None?
              && r.1 == [Clear]
  {
    if |file| > 0 then
      var first := ReadSlot(file, 0, crc);
      var second := ReadSlot(file, 1, crc);
      var selected := SelectCheckpoint(first, second);
      FixMasterRecords(w.(firstMasterRecord := first, secondMasterRecord := second,
                          lastCheckpoint := selected.0, useFirstMasterRecord := selected.1))
    else FixMasterRecords(w)
  }

  /** `getOldestTxLsn`. */
  function GetOldestTxLsn(w: Wal): (r: Option<Lsn>)
    requires |w.segments| > 0
    ensures |w.lastTxs| > 0 ==> r == Some(w.lastTxs[0])
    ensures |w.lastTxs| == 0 ==> r == End(w.segments)
  {
    if |w.lastTxs| > 0 then Some(w.lastTxs[0]) else End(w.segments)
  }

  /** `addCutTillLimit` / `removeCutTillLimit` on the log state. */
  function AddLimit(w: Wal, lsn: Option<Lsn>): (r: Result<Wal, LimitError>)
    requires CutTillLimits.WellFormed(w.cutTillLimits)
    ensures r.Ok? ==> r.value == w.(cutTillLimits := r.value.cutTillLimits)
    ensures r.Ok? <==> lsn.Some?
    ensures r.Ok? ==> r.value.cutTillLimits == AddCutTillLimit(w.cutTillLimits, lsn).value
  {
    match AddCutTillLimit(w.cutTillLimits, lsn)
    case Err(e) => Err(e)
    case Ok(ls) => Ok(w.(cutTillLimits := ls))
  }

  function RemoveLimit(w: Wal, lsn: Option<Lsn>): (r: Result<Wal, LimitError>)
    requires CutTillLimits.WellFormed(w.cutTillLimits)
    ensures r.Ok? ==> r.value == w.(cutTillLimits := r.value.cutTillLimits)
    ensures r.Ok? <==> lsn.Some? && lsn.value in Keys(w.cutTillLimits)
    ensures r.Ok? ==> r.value.cutTillLimits == RemoveCutTillLimit(w.cutTillLimits, lsn).value
  {
    match RemoveCutTillLimit(w.cutTillLimits, lsn)
    case Err(e) => Err(e)
    case Ok(ls) => Ok(w.(cutTillLimits := ls))
  }

  /** LSNs strictly increasing along a list. */
  predicate LsnsIncreasing(s: seq<Lsn>) {
    forall i, j :: 0 <= i < j < |s| ==> Less(s[i], s[j])
  }

  /** `lsn` was handed out before the current state: it is at most `end()`,
      or, when no segment holds a record, below the next LSN. */
  predicate IssuedBefore(segs: seq<Segment>, lsn: Lsn)
    requires |segs| > 0
  {
    match End(segs)
    case Some(end) => LessEq(lsn, end)
    case None => Less(lsn, NextLsn(segs))
  }

  /** The invariant every reachable state keeps. */
  predicate Valid(w: Wal) {
    && |w.segments| > 0
    && AllWellFormed(w.segments)
    && OrdersIncreasing(w.segments)
    && NonTailFilled(w.segments)
    && w.logSize == TotalFilled(w.segments)
    && CutTillLimits.WellFormed(w.cutTillLimits)
    && |w.lastTxs| <= MaxLastTxs + 1
    && LsnsIncreasing(w.lastTxs)
    && (forall i :: 0 <= i < |w.lastTxs| ==> IssuedBefore(w.segments, w.lastTxs[i]))
  }

  /** The slot due for the next checkpoint never holds the current one: the
      other slot does. A torn write therefore never loses the last
      checkpoint. */
  predicate CheckpointInSpareSlot(w: Wal) {
    w.lastCheckpoint.Some? ==>
      if w.useFirstMasterRecord then w.secondMasterRecord == w.lastCheckpoint
      else w.firstMasterRecord == w.lastCheckpoint
  }
}

=== FILE: wal_checkpoints.dfy ===
/** The two checkpoint slots of the master-record file: how the state kept
    in memory and the bytes on disk stay in step, and why alternating
    between the slots means a torn write never loses the last checkpoint. */
module WalCheckpoints {
  import opened Wrappers
  import opened Lsns
  import opened Segments
  import opened SegmentList
  import opened JavaInts
  import opened MasterRecord
  import opened WriteAheadLog
  import opened WalInvariants

  /** An all-zero slot does not pass the checksum test. CRC-32 has this
      property: its value over sixteen zero bytes is not zero. */
  predicate ZeroSlotRejected(crc: seq<byte> -> Checksum) {
    DecodeSlot(Zeros(SlotSize), crc).None?
  }

  /** Reading the two slots of `file` gives the two slots in memory. */
  predicate SlotsMatch(file: seq<byte>, w: Wal, crc: seq<byte> -> Checksum) {
    && ReadSlot(file, 0, crc) == w.firstMasterRecord
    && ReadSlot(file, 1, crc) == w.secondMasterRecord
  }

  /** The file is in step with the state, and is either empty or holds a
      complete first slot. */
  predicate Mirrors(file: seq<byte>, w: Wal, crc: seq<byte> -> Checksum) {
    SlotsMatch(file, w, crc) && (|file| == 0 || |file| >= SlotSize)
  }

  /** An LSN a `long` pair can hold. */
  predicate Encodable(lsn: Lsn) {
    IsInt64(lsn.segment) && IsInt64(lsn.position)
  }

  /** Writing one of the two slots of a file in step with the state: the
      written slot reads back, the other slot reads as before. */
  lemma WriteOneSlot(file: seq<byte>, slot: nat, lsn: Lsn, crc: seq<byte> -> Checksum)
    requires slot < 2
    requires |file| == 0 || |file| >= SlotSize
    requires ZeroSlotRejected(crc) && Encodable(lsn)
    ensures ReadSlot(WriteSlot(file, slot, lsn, crc), slot, crc) == Some(lsn)
    ensures ReadSlot(WriteSlot(file, slot, lsn, crc), 1 - slot, crc) == ReadSlot(file, 1 - slot, crc)
    ensures |WriteSlot(file, slot, lsn, crc)| >= SlotSize
  {
    ReadAfterWrite(file, slot, lsn, crc);
    if slot == 0 || |file| >= SlotSize {
      WriteLeavesOtherSlot(file, slot, 1 - slot, lsn, crc);
    } else {
      // Writing the second slot of an empty file leaves zeros before it.
      var r := WriteSlot(file, 1, lsn, crc);
      assert r[..SlotSize] == Zeros(SlotSize);
      assert r[0..SlotSize] == r[..SlotSize];
    }
  }

  /** Logging keeps the file in step: a checkpoint record's single slot
      write brings the file to the new state. */
  lemma LogKeepsFileInStep(w: Wal, rec: Record, file: seq<byte>, crc: seq<byte> -> Checksum)
    requires |w.segments| > 0
    requires Mirrors(file, w, crc) && ZeroSlotRejected(crc)
    requires InternalLog(w, rec).Logged? && Encodable(InternalLog(w, rec).lsn)
    ensures Mirrors(Apply(file, InternalLog(w, rec).io, crc), InternalLog(w, rec).wal, crc)
  {
    var r := InternalLog(w, rec);
    if rec.updateMasterRecord {
      var slot := if w.useFirstMasterRecord then 0 else 1;
      assert Apply(file, r.io, crc) == WriteSlot(file, slot, r.lsn, crc);
      WriteOneSlot(file, slot, r.lsn, crc);
    }
  }

  /** `fixMasterRecords` brings a file whose slots read as the state in
      step with the state it produces. */
  lemma FixKeepsFileInStep(w: Wal, file: seq<byte>, crc: seq<byte> -> Checksum)
    requires |w.segments| > 0
    requires SlotsMatch(file, w, crc)
    ensures Mirrors(Apply(file, FixMasterRecords(w).1, crc), FixMasterRecords(w).0, crc)
  {
    var first := CheckSlot(w.segments, w.firstMasterRecord);
    var second := CheckSlot(w.segments, w.secondMasterRecord);
    if first.Some? != second.Some? {
      var v := FixMasterRecords(w).0.firstMasterRecord.value;
      WriteBothSlots(file, v, crc);
    }
  }

  /** Copying one LSN to both slots, first slot first, makes both slots
      read as that LSN. */
  lemma WriteBothSlots(file: seq<byte>, lsn: Lsn, crc: seq<byte> -> Checksum)
    requires Encodable(lsn)
    ensures var written := Apply(file, [WriteMaster(0, lsn), WriteMaster(1, lsn)], crc);
            && ReadSlot(written, 0, crc) == Some(lsn)
            && ReadSlot(written, 1, crc) == Some(lsn)
            && |written| >= SlotSize
  {
    var f1 := WriteSlot(file, 0, lsn, crc);
    var io := [WriteMaster(0, lsn), WriteMaster(1, lsn)];
    assert io[1..] == [WriteMaster(1, lsn)] && io[1..][1..] == [];
    assert Apply(f1, io[1..], crc) == Apply(WriteSlot(f1, 1, lsn, crc), [], crc);
    assert Apply(file, [WriteMaster(0, lsn), WriteMaster(1, lsn)], crc) == WriteSlot(f1, 1, lsn, crc);
    ReadAfterWrite(file, 0, lsn, crc);
    ReadAfterWrite(f1, 1, lsn, crc);
    WriteLeavesOtherSlot(f1, 1, 0, lsn, crc);
  }

  /** Construction leaves the master file in step with the state. */
  lemma OpenLeavesFileInStep(config: Config, discovered: seq<Segment>, file: seq<byte>, crc: seq<byte> -> Checksum)
    requires ZeroSlotRejected(crc)
    ensures var result := OpenMaster(Initial(config, discovered), file, crc);
            Mirrors(Apply(file, result.1, crc), result.0, crc)
  {
    var w := Initial(config, discovered);
    if |file| > 0 {
      var first := ReadSlot(file, 0, crc);
      var second := ReadSlot(file, 1, crc);
      var selected := SelectCheckpoint(first, second);
      FixKeepsFileInStep(w.(firstMasterRecord := first, secondMasterRecord := second,
                             lastCheckpoint := selected.0, useFirstMasterRecord := selected.1), file, crc);
    } else {
      FixKeepsFileInStep(w, file, crc);
    }
  }

  /** Construction over well-shaped segments yields a valid log whose
      current checkpoint sits in the slot not due next. */
  lemma OpenIsValid(config: Config, discovered: seq<Segment>, file: seq<byte>, crc: seq<byte> -> Checksum)
    requires AllWellFormed(discovered) && OrdersIncreasing(discovered) && NonTailFilled(discovered)
    ensures Valid(OpenMaster(Initial(config, discovered), file, crc).0)
    ensures CheckpointInSpareSlot(OpenMaster(Initial(config, discovered), file, crc).0)
  {
    var w := Initial(config, discovered);
    assert AllWellFormed(w.segments);
    if |file| > 0 {
      var first := ReadSlot(file, 0, crc);
      var second := ReadSlot(file, 1, crc);
      var selected := SelectCheckpoint(first, second);
      var w1 := w.(firstMasterRecord := first, secondMasterRecord := second,
                   lastCheckpoint := selected.0, useFirstMasterRecord := selected.1);
      assert CheckpointInSpareSlot(w1);
      FixKeepsSpareSlot(w1);
    } else {
      FixKeepsSpareSlot(w);
    }
  }

  /** `fixMasterRecords` keeps the current checkpoint out of the slot due
      next. */
  lemma FixKeepsSpareSlot(w: Wal)
    requires |w.segments| > 0
    requires CheckpointInSpareSlot(w)
    ensures CheckpointInSpareSlot(FixMasterRecords(w).0)
  {
  }

  /** `fixMasterRecords` is idempotent: a second run changes nothing and
      writes nothing beyond emptying an already empty file. */
  lemma FixMasterRecordsIdempotent(w: Wal)
    requires |w.segments| > 0
    ensures var once := FixMasterRecords(w).0;
            && FixMasterRecords(once).0 == once
            && (FixMasterRecords(once).1 == [] || FixMasterRecords(once).1 == [Clear])
  {
  }

  /** A checkpoint write goes to the slot not holding the current
      checkpoint, so the previous checkpoint survives in the other slot,
      and the new one is in turn kept out of the slot due next. */
  lemma CheckpointWriteKeepsPrevious(w: Wal, rec: Record)
    requires |w.segments| > 0
    requires CheckpointInSpareSlot(w)
    requires rec.updateMasterRecord && InternalLog(w, rec).Logged?
    ensures var after := InternalLog(w, rec).wal;
            && CheckpointInSpareSlot(after)
            && after.lastCheckpoint == Some(InternalLog(w, rec).lsn)
            && (w.lastCheckpoint.Some? ==>
                  (if w.useFirstMasterRecord then after.secondMasterRecord else after.firstMasterRecord) == w.lastCheckpoint)
  {
  }

  /** Two checkpoints in a row land in different slots, and afterwards the
      two slots hold exactly those two LSNs. */
  lemma SuccessiveCheckpointsAlternate(w: Wal, first: Record, second: Record)
    requires |w.segments| > 0
    requires first.updateMasterRecord && second.updateMasterRecord
    requires InternalLog(w, first).Logged?
    requires InternalLog(InternalLog(w, first).wal, second).Logged?
    ensures var r1 := InternalLog(w, first);
            var r2 := InternalLog(r1.wal, second);
            && |r1.io| == 1 && |r2.io| == 1
            && r1.io[0].slot != r2.io[0].slot
            && {r2.wal.firstMasterRecord, r2.wal.secondMasterRecord} == {Some(r1.lsn), Some(r2.lsn)}
  {
  }

  /** A torn checkpoint write is harmless: if the slot being written no
      longer passes its checksum while the other slot is untouched, the
      next start selects the checkpoint that was current before the
      write. */
  lemma TornCheckpointWriteFallsBack(w: Wal, file: seq<byte>, torn: seq<byte>, crc: seq<byte> -> Checksum)
    requires Mirrors(file, w, crc) && CheckpointInSpareSlot(w)
    requires w.lastCheckpoint.Some?
    requires var due := if w.useFirstMasterRecord then 0 else 1;
             && ReadSlot(torn, due, crc).None?
             && ReadSlot(torn, 1 - due, crc) == ReadSlot(file, 1 - due, crc)
    ensures SelectCheckpoint(ReadSlot(torn, 0, crc), ReadSlot(torn, 1, crc)).0 == w.lastCheckpoint
  {
  }
}

=== FILE: wal_invariants.dfy ===
/** The invariant of the write-ahead log and the ordering facts it gives:
    every operation keeps `Valid`, and every logged LSN is greater than any
    LSN the log handed out before. */
module WalInvariants {
  import opened Wrappers
  import opened Lsns
  import opened Segments
  import opened SegmentList
  import opened CutTillLimits
  import opened WriteAheadLog

  /** The next LSN lies above `end()`. */
  lemma {:induction false} EndBelowNextLsn(segs: seq<Segment>)
    requires |segs| > 0 && AllWellFormed(segs) && OrdersIncreasing(segs)
    requires End(segs).Some?
    ensures Less(End(segs).value, NextLsn(segs))
  {
    var last := |segs| - 1;
    assert Segments.WellFormed(segs[last]);
    if segs[last].filledUpTo == 0 {
      var prefix := segs[..last];
      assert forall j :: 0 <= j < last ==> prefix[j] == segs[j];
      EndBelowNextLsn(prefix);
      assert segs[last - 1].order < segs[last].order;
    }
  }

  /** Every LSN handed out so far lies below the next one. */
  lemma IssuedBelowNext(segs: seq<Segment>, lsn: Lsn)
    requires |segs| > 0 && AllWellFormed(segs) && OrdersIncreasing(segs)
    requires IssuedBefore(segs, lsn)
    ensures Less(lsn, NextLsn(segs))
  {
    if End(segs).Some? {
      EndBelowNextLsn(segs);
    }
  }

  /** `end()` of a list whose last filled segment is `a`, possibly followed
      by one empty segment. */
  lemma EndOfAppended(prefix: seq<Segment>, a: Segment, tail: seq<Segment>)
    requires a.filledUpTo > 0
    requires |tail| <= 1 && (|tail| == 1 ==> tail[0].filledUpTo == 0)
    ensures End(prefix + [a] + tail) == a.end
  {
    var s := prefix + [a] + tail;
    if |tail| == 1 {
      assert s[..|s| - 1] == prefix + [a];
    }
  }

  /** A suffix that keeps the last filled segment keeps `end()`. */
  lemma EndOfSuffix(segs: seq<Segment>, k: nat, last: nat)
    requires k <= last && LastFilledAt(segs, last)
    ensures End(segs[k..]) == End(segs)
    ensures NextLsn(segs[k..]) == NextLsn(segs)
  {
    var rest := segs[k..];
    assert rest[last - k] == segs[last];
    assert rest[|rest| - 1] == segs[|segs| - 1];
    forall j | last - k < j < |rest| ensures rest[j].filledUpTo == 0 {
      assert rest[j] == segs[j + k];
    }
    assert LastFilledAt(rest, last - k);
  }

  /** Dropping leading segments (but never the tail) keeps every LSN
      handed out so far counted as handed out. */
  lemma SuffixKeepsIssued(segs: seq<Segment>, k: nat, lsn: Lsn)
    requires |segs| > 0 && NonTailFilled(segs)
    requires k < |segs|
    requires IssuedBefore(segs, lsn) && Less(lsn, NextLsn(segs))
    ensures IssuedBefore(segs[k..], lsn)
  {
    var n := |segs|;
    if segs[n - 1].filledUpTo > 0 {
      SuffixFromFilledKeepsIssued(segs, k, n - 1, lsn);
    } else if k < n - 1 {
      assert segs[n - 2].filledUpTo > 0;
      SuffixFromFilledKeepsIssued(segs, k, n - 2, lsn);
    } else {
      TailOnlyIssued(segs, lsn);
    }
  }

  /** The case of `SuffixKeepsIssued` where the last filled segment is
      kept. */
  lemma SuffixFromFilledKeepsIssued(segs: seq<Segment>, k: nat, last: nat, lsn: Lsn)
    requires k <= last && LastFilledAt(segs, last)
    requires IssuedBefore(segs, lsn)
    ensures IssuedBefore(segs[k..], lsn)
  {
    var rest := segs[k..];
    EndOfSuffix(segs, k, last);
    SameEndSameIssued(segs, rest, lsn);
  }

  /** With only an empty tail left, an LSN counts as handed out when it is
      below the next one. */
  lemma TailOnlyIssued(segs: seq<Segment>, lsn: Lsn)
    requires |segs| > 0 && segs[|segs| - 1].filledUpTo == 0
    requires Less(lsn, NextLsn(segs))
    ensures IssuedBefore(segs[|segs| - 1..], lsn)
  {
    var rest := segs[|segs| - 1..];
    assert |rest| == 1 && rest[0] == segs[|segs| - 1];
  }

  /** Whether an LSN counts as handed out depends only on `end()` and the
      next LSN. */
  lemma SameEndSameIssued(a: seq<Segment>, b: seq<Segment>, lsn: Lsn)
    requires |a| > 0 && |b| > 0
    requires End(a) == End(b) && NextLsn(a) == NextLsn(b)
    requires IssuedBefore(a, lsn)
    ensures IssuedBefore(b, lsn)
  {
  }

  /** The shape invariants hold of a suffix. */
  lemma SuffixShape(segs: seq<Segment>, k: nat)
    requires AllWellFormed(segs) && OrdersIncreasing(segs) && NonTailFilled(segs)
    requires k <= |segs|
    ensures AllWellFormed(segs[k..]) && OrdersIncreasing(segs[k..]) && NonTailFilled(segs[k..])
  {
    assert forall i :: 0 <= i < |segs[k..]| ==> segs[k..][i] == segs[k + i];
  }

  /** Replacing the tail by a grown copy, perhaps followed by an empty
      segment, keeps the shape invariants, adds the growth to the total and
      makes the grown tail's last record `end()`. */
  lemma GrownList(prefix: seq<Segment>, before: Segment, grown: Segment, extra: seq<Segment>)
    requires AllWellFormed(prefix + [before]) && OrdersIncreasing(prefix + [before]) && NonTailFilled(prefix + [before])
    requires grown.order == before.order && grown.filledUpTo > 0 && Segments.WellFormed(grown)
    requires |extra| <= 1
    requires |extra| == 1 ==> Segments.WellFormed(extra[0]) && extra[0].order > before.order && extra[0].filledUpTo == 0
    ensures AllWellFormed(prefix + [grown] + extra)
    ensures OrdersIncreasing(prefix + [grown] + extra)
    ensures NonTailFilled(prefix + [grown] + extra)
    ensures TotalFilled(prefix + [grown] + extra) == TotalFilled(prefix + [before]) + grown.filledUpTo - before.filledUpTo
    ensures End(prefix + [grown] + extra) == grown.end
  {
    GrownOrders(prefix, before, grown, extra);
    GrownTotal(prefix, before, grown, extra);
    EndOfAppended(prefix, grown, extra);
  }

  lemma GrownTotal(prefix: seq<Segment>, before: Segment, grown: Segment, extra: seq<Segment>)
    requires |extra| <= 1 && (|extra| == 1 ==> extra[0].filledUpTo == 0)
    ensures TotalFilled(prefix + [grown] + extra) == TotalFilled(prefix + [before]) + grown.filledUpTo - before.filledUpTo
  {
    TotalFilledConcat(prefix + [grown], extra);
    TotalFilledConcat(prefix, [grown]);
    TotalFilledConcat(prefix, [before]);
  }

  /** Replacing the tail by a well-formed filled segment of the same order,
      and perhaps adding an empty well-formed one of a larger order, keeps
      the shape invariants. */
  lemma GrownOrders(prefix: seq<Segment>, before: Segment, grown: Segment, extra: seq<Segment>)
    requires AllWellFormed(prefix + [before]) && OrdersIncreasing(prefix + [before]) && NonTailFilled(prefix + [before])
    requires grown.order == before.order && grown.filledUpTo > 0 && Segments.WellFormed(grown)
    requires |extra| <= 1
    requires |extra| == 1 ==> Segments.WellFormed(extra[0]) && extra[0].order > before.order
    ensures AllWellFormed(prefix + [grown] + extra)
    ensures OrdersIncreasing(prefix + [grown] + extra)
    ensures NonTailFilled(prefix + [grown] + extra)
  {
    var s, t := prefix + [before], prefix + [grown] + extra;
    var n := |s|;
    assert forall i :: 0 <= i < n - 1 ==> t[i] == s[i];
    assert forall i :: 0 <= i < n - 1 ==> s[i].order < before.order by {
      assert s[n - 1] == before;
    }
  }

  /** `internalLog` keeps the invariant, and the LSN it hands out lies above
      every LSN handed out before and becomes `end()`. */
  lemma InternalLogKeepsValid(w: Wal, rec: Record)
    requires Valid(w)
    requires InternalLog(w, rec).Logged?
    ensures Valid(InternalLog(w, rec).wal)
    ensures End(InternalLog(w, rec).wal.segments) == Some(InternalLog(w, rec).lsn)
    ensures End(w.segments).Some? ==> Less(End(w.segments).value, InternalLog(w, rec).lsn)
    ensures forall i :: 0 <= i < |w.segments| && w.segments[i].end.Some? ==>
              Less(w.segments[i].end.value, InternalLog(w, rec).lsn)
    ensures forall i :: 0 <= i < |w.lastTxs| ==> Less(w.lastTxs[i], InternalLog(w, rec).lsn)
  {
    var r := InternalLog(w, rec);
    LoggedSegments(w, rec);
    LoggedAboveIssued(w, r.lsn);
    PushedTxs(w, rec, r.lsn, r.wal.lastTxs);
    ValidFromParts(r.wal, r.lsn);
  }

  /** The segment list `internalLog` leaves keeps the shape invariants,
      grows the total by the footprint and ends at the new record. */
  lemma LoggedSegments(w: Wal, rec: Record)
    requires |w.segments| > 0 && AllWellFormed(w.segments) && OrdersIncreasing(w.segments) && NonTailFilled(w.segments)
    requires InternalLog(w, rec).Logged?
    ensures var segs := InternalLog(w, rec).wal.segments;
            && AllWellFormed(segs) && OrdersIncreasing(segs) && NonTailFilled(segs)
            && TotalFilled(segs) == TotalFilled(w.segments) + rec.footprint
            && End(segs) == Some(InternalLog(w, rec).lsn)
  {
    var r := InternalLog(w, rec);
    var segs, segs' := w.segments, r.wal.segments;
    var n := |segs|;
    var prefix := segs[..n - 1];
    var app := LogRecord(segs[n - 1], rec.footprint);
    var extra := segs'[n..];
    assert segs' == prefix + [app.segment] + extra by {
      assert segs'[..n - 1] == prefix;
      assert segs' == segs'[..n - 1] + [segs'[n - 1]] + segs'[n..];
    }
    assert segs == prefix + [segs[n - 1]];
    assert Segments.WellFormed(segs[n - 1]);
    GrownList(prefix, segs[n - 1], app.segment, extra);
  }

  /** The invariant, assembled from its parts when every history entry is
      at most `end()`. */
  lemma ValidFromParts(w: Wal, end: Lsn)
    requires |w.segments| > 0 && AllWellFormed(w.segments) && OrdersIncreasing(w.segments) && NonTailFilled(w.segments)
    requires w.logSize == TotalFilled(w.segments)
    requires CutTillLimits.WellFormed(w.cutTillLimits)
    requires |w.lastTxs| <= MaxLastTxs + 1 && LsnsIncreasing(w.lastTxs)
    requires End(w.segments) == Some(end)
    requires forall i :: 0 <= i < |w.lastTxs| ==> LessEq(w.lastTxs[i], end)
    ensures Valid(w)
  {
  }


  /** The next LSN lies above every LSN the state has handed out. */
  lemma LoggedAboveIssued(w: Wal, lsn: Lsn)
    requires Valid(w)
    requires lsn == NextLsn(w.segments)
    ensures End(w.segments).Some? ==> Less(End(w.segments).value, lsn)
    ensures forall i :: 0 <= i < |w.segments| && w.segments[i].end.Some? ==> Less(w.segments[i].end.value, lsn)
    ensures forall i :: 0 <= i < |w.lastTxs| ==> Less(w.lastTxs[i], lsn)
  {
    if End(w.segments).Some? {
      EndBelowNextLsn(w.segments);
    }
    forall i | 0 <= i < |w.segments| && w.segments[i].end.Some? ensures Less(w.segments[i].end.value, lsn) {
      EndIsGreatest(w.segments, i);
    }
    forall i | 0 <= i < |w.lastTxs| ensures Less(w.lastTxs[i], lsn) {
      IssuedBelowNext(w.segments, w.lastTxs[i]);
    }
  }

  /** The history after logging a record at `lsn`, with `lsn` above every
      earlier entry, stays increasing, bounded and below `lsn`. */
  lemma PushedTxs(w: Wal, rec: Record, lsn: Lsn, txs: seq<Lsn>)
    requires |w.lastTxs| <= MaxLastTxs + 1 && LsnsIncreasing(w.lastTxs)
    requires forall i :: 0 <= i < |w.lastTxs| ==> Less(w.lastTxs[i], lsn)
    requires txs == if rec.kind.AtomicEnd? then PushLastTx(w.lastTxs, lsn) else w.lastTxs
    ensures |txs| <= MaxLastTxs + 1 && LsnsIncreasing(txs)
    ensures forall i :: 0 <= i < |txs| ==> LessEq(txs[i], lsn)
  {
  }

  /** Logging a start record keeps the invariant. */
  lemma LogStartKeepsValid(w: Wal, id: OpId, footprint: Footprint)
    requires Valid(w)
    requires LogAtomicOperationStartRecord(w, id, footprint).Logged?
    ensures Valid(LogAtomicOperationStartRecord(w, id, footprint).wal)
  {
    InternalLogKeepsValid(w, Record(AtomicStart(id), false, footprint));
  }

  /** Logging an end record keeps the invariant. */
  lemma LogEndKeepsValid(w: Wal, id: OpId, footprint: Footprint)
    requires Valid(w)
    requires LogAtomicOperationEndRecord(w, id, footprint).Logged?
    ensures Valid(LogAtomicOperationEndRecord(w, id, footprint).wal)
  {
    InternalLogKeepsValid(w, Record(AtomicEnd(id), false, footprint));
  }

  /** Two records logged one after the other get increasing LSNs. */
  lemma SuccessiveLsnsIncrease(w: Wal, first: Record, second: Record)
    requires Valid(w)
    requires InternalLog(w, first).Logged?
    requires InternalLog(InternalLog(w, first).wal, second).Logged?
    ensures Less(InternalLog(w, first).lsn, InternalLog(InternalLog(w, first).wal, second).lsn)
  {
    InternalLogKeepsValid(w, first);
    InternalLogKeepsValid(InternalLog(w, first).wal, second);
  }

  /** Adding an empty segment after a filled tail keeps the shape
      invariants, the total and `end()`. */
  lemma AppendEmpty(segs: seq<Segment>, s: Segment)
    requires |segs| > 0 && AllWellFormed(segs) && OrdersIncreasing(segs) && NonTailFilled(segs)
    requires segs[|segs| - 1].filledUpTo > 0
    requires Segments.WellFormed(s) && s.filledUpTo == 0 && s.order > segs[|segs| - 1].order
    ensures AllWellFormed(segs + [s]) && OrdersIncreasing(segs + [s]) && NonTailFilled(segs + [s])
    ensures TotalFilled(segs + [s]) == TotalFilled(segs)
    ensures End(segs + [s]) == End(segs)
  {
    var t := segs + [s];
    assert t[..|segs|] == segs;
    assert forall i :: 0 <= i < |segs| ==> t[i] == segs[i];
  }

  /** Dropping an empty tail keeps the shape invariants, the total and
      `end()`. */
  lemma DropEmptyTail(segs: seq<Segment>)
    requires |segs| > 1 && AllWellFormed(segs) && OrdersIncreasing(segs) && NonTailFilled(segs)
    requires segs[|segs| - 1].filledUpTo == 0
    ensures AllWellFormed(segs[..|segs| - 1]) && OrdersIncreasing(segs[..|segs| - 1])
    ensures NonTailFilled(segs[..|segs| - 1]) && segs[|segs| - 2].filledUpTo > 0
    ensures TotalFilled(segs[..|segs| - 1]) == TotalFilled(segs)
    ensures End(segs[..|segs| - 1]) == End(segs)
  {
    var p := segs[..|segs| - 1];
    assert forall i :: 0 <= i < |p| ==> p[i] == segs[i];
  }

  /** The public `appendNewSegment` keeps the invariant. */
  lemma AppendNewSegmentKeepsValid(w: Wal)
    requires Valid(w)
    requires AppendNewSegment(w).Ok?
    ensures Valid(AppendNewSegment(w).value.0)
  {
    var (w', added) := AppendNewSegment(w).value;
    if added {
      var s := NewSegment(w.segments[|w.segments| - 1].order + 1);
      assert w' == w.(segments := w.segments + [s]);
      AppendEmptyKeepsValid(w, s);
    } else {
      assert w' == w;
    }
  }

  /** Adding an empty segment after a filled tail keeps the invariant. */
  lemma AppendEmptyKeepsValid(w: Wal, s: Segment)
    requires Valid(w) && w.segments[|w.segments| - 1].filledUpTo > 0
    requires Segments.WellFormed(s) && s.filledUpTo == 0 && s.order > w.segments[|w.segments| - 1].order
    ensures Valid(w.(segments := w.segments + [s]))
  {
    AppendEmpty(w.segments, s);
    IssuedAtMostEnd(w);
    ValidFromParts(w.(segments := w.segments + [s]), End(w.segments).value);
  }

  /** Under the invariant, with some segment filled, every history entry is
      at most `end()`. */
  lemma IssuedAtMostEnd(w: Wal)
    requires Valid(w) && End(w.segments).Some?
    ensures forall i :: 0 <= i < |w.lastTxs| ==> LessEq(w.lastTxs[i], End(w.segments).value)
  {
    forall i | 0 <= i < |w.lastTxs| ensures LessEq(w.lastTxs[i], End(w.segments).value) {
      assert IssuedBefore(w.segments, w.lastTxs[i]);
    }
  }

  /** `moveLsnAfter` keeps the invariant. */
  lemma MoveLsnAfterKeepsValid(w: Wal, lsn: Lsn)
    requires Valid(w)
    requires MoveLsnAfter(w, lsn).Ok?
    ensures Valid(MoveLsnAfter(w, lsn).value)
  {
    var moved := MoveLsnAfter(w, lsn).value;
    MovedSegments(w, lsn, moved);
    IssuedAtMostEnd(w);
    ValidFromParts(moved, End(w.segments).value);
  }

  /** The segment list `moveLsnAfter` leaves keeps the shape invariants,
      the total and `end()`. */
  lemma MovedSegments(w: Wal, lsn: Lsn, moved: Wal)
    requires |w.segments| > 0 && AllWellFormed(w.segments) && OrdersIncreasing(w.segments) && NonTailFilled(w.segments)
    requires MoveLsnAfter(w, lsn) == Ok(moved)
    ensures AllWellFormed(moved.segments) && OrdersIncreasing(moved.segments) && NonTailFilled(moved.segments)
    ensures TotalFilled(moved.segments) == TotalFilled(w.segments)
    ensures End(w.segments).Some? && End(moved.segments) == End(w.segments)
  {
    var segs := w.segments;
    assert End(segs).Some?;
    if !Less(lsn, End(segs).value) {
      MovedList(segs, lsn);
    }
  }

  /** The list `moveLsnAfter` builds keeps the shape invariants, the total
      and `end()`. */
  lemma MovedList(segs: seq<Segment>, lsn: Lsn)
    requires |segs| > 0 && AllWellFormed(segs) && OrdersIncreasing(segs) && NonTailFilled(segs)
    requires End(segs).Some? && !Less(lsn, End(segs).value)
    ensures var moved := WithoutEmptyTail(segs) + [NewSegment(lsn.segment + 1)];
            && AllWellFormed(moved) && OrdersIncreasing(moved) && NonTailFilled(moved)
            && TotalFilled(moved) == TotalFilled(segs)
            && End(moved) == End(segs)
  {
    var kept := WithoutEmptyTail(segs);
    KeptSegments(segs);
    AppendEmpty(kept, NewSegment(lsn.segment + 1));
  }

  /** Dropping an empty tail (if any) leaves a list whose tail is filled
      and holds `end()`. */
  lemma KeptSegments(segs: seq<Segment>)
    requires |segs| > 0 && AllWellFormed(segs) && OrdersIncreasing(segs) && NonTailFilled(segs)
    requires End(segs).Some?
    ensures var kept := WithoutEmptyTail(segs);
            && |kept| > 0 && AllWellFormed(kept) && OrdersIncreasing(kept) && NonTailFilled(kept)
            && kept[|kept| - 1].filledUpTo > 0
            && kept[|kept| - 1].order == End(segs).value.segment
            && TotalFilled(kept) == TotalFilled(segs)
            && End(kept) == End(segs)
  {
    var n := |segs|;
    var kept := WithoutEmptyTail(segs);
    if segs[n - 1].filledUpTo == 0 {
      DropEmptyTail(segs);
    }
    var last := |kept| - 1;
    assert kept[last] == segs[last];
    assert Segments.WellFormed(kept[last]);
    assert LastFilledAt(kept, last);
  }

  /** `truncate` keeps the invariant. */
  lemma TruncateKeepsValid(w: Wal)
    requires Valid(w)
    ensures Valid(Truncate(w))
  {
    var n := |w.segments|;
    if n >= 2 {
      assert Truncate(w).segments == w.segments[n - 1..];
      SuffixShape(w.segments, n - 1);
      forall i | 0 <= i < |w.lastTxs| ensures IssuedBefore(w.segments[n - 1..], w.lastTxs[i]) {
        IssuedBelowNext(w.segments, w.lastTxs[i]);
        SuffixKeepsIssued(w.segments, n - 1, w.lastTxs[i]);
      }
    }
  }

  /** `fixMasterRecords` touches only the checkpoint slots. */
  lemma FixMasterRecordsKeepsValid(w: Wal)
    requires Valid(w)
    ensures Valid(FixMasterRecords(w).0)
  {
  }

  /** `cutTill` keeps the invariant, and under it never meets a segment
      without an end LSN. */
  lemma CutTillKeepsValid(w: Wal, lsn: Lsn)
    requires Valid(w)
    ensures CutTill(w, lsn).Ok?
    ensures Valid(CutTill(w, lsn).value.wal)
  {
    var n := |w.segments|;
    var nonTail := w.segments[..n - 1];
    forall i | 0 <= i < |nonTail| ensures nonTail[i].end.Some? {
      assert nonTail[i] == w.segments[i];
      assert Segments.WellFormed(w.segments[i]);
    }
    var r := CutTill(w, lsn);
    var k := n - |r.value.wal.segments|;
    assert r.value.wal.segments == w.segments[k..];
    SuffixShape(w.segments, k);
    forall i | 0 <= i < |w.lastTxs| ensures IssuedBefore(w.segments[k..], w.lastTxs[i]) {
      IssuedBelowNext(w.segments, w.lastTxs[i]);
      SuffixKeepsIssued(w.segments, k, w.lastTxs[i]);
    }
  }

  /** The limits keep the invariant. */
  lemma LimitsKeepValid(w: Wal, lsn: Option<Lsn>)
    requires Valid(w)
    ensures AddLimit(w, lsn).Ok? ==> Valid(AddLimit(w, lsn).value)
    ensures RemoveLimit(w, lsn).Ok? ==> Valid(RemoveLimit(w, lsn).value)
  {
  }

  /** Under the invariant `cutTill` keeps every segment that ends at or
      after its target: every kept segment but the tail ends at or after
      the target. */
  lemma CutTillKeepsFromTarget(w: Wal, lsn: Lsn)
    requires Valid(w)
    ensures CutTill(w, lsn).Ok?
    ensures var kept := CutTill(w, lsn).value.wal.segments;
            forall j :: 0 <= j < |kept| - 1 ==>
              kept[j].end.Some? && !Less(kept[j].end.value, Clamp(w.cutTillLimits, lsn))
  {
    CutTillKeepsValid(w, lsn);
    var kept := CutTill(w, lsn).value.wal.segments;
    LaterSegmentsEndLater(kept, Clamp(w.cutTillLimits, lsn));
  }

  /** If the first of several segments ends at or after `target`, so do
      all but the last. */
  lemma LaterSegmentsEndLater(segs: seq<Segment>, target: Lsn)
    requires AllWellFormed(segs) && OrdersIncreasing(segs) && NonTailFilled(segs)
    requires |segs| > 1 ==> segs[0].end.Some? && !Less(segs[0].end.value, target)
    ensures forall j :: 0 <= j < |segs| - 1 ==> segs[j].end.Some? && !Less(segs[j].end.value, target)
  {
    forall j | 0 <= j < |segs| - 1 ensures segs[j].end.Some? && !Less(segs[j].end.value, target) {
      assert Segments.WellFormed(segs[0]) && Segments.WellFormed(segs[j]);
    }
  }

  /** No segment that ends at or after a registered retention floor is
      deleted by `cutTill`, whatever LSN it is asked to cut to. */
  lemma CutTillRespectsLimits(w: Wal, lsn: Lsn, floor: Lsn)
    requires Valid(w)
    requires floor in Keys(w.cutTillLimits)
    ensures CutTill(w, lsn).Ok?
    ensures forall i :: 0 <= i < |w.segments| - |CutTill(w, lsn).value.wal.segments| ==>
              w.segments[i].end.Some? && Less(w.segments[i].end.value, floor)
  {
    CutTillKeepsValid(w, lsn);
    var target := Clamp(w.cutTillLimits, lsn);
    assert LessEq(target, floor);
  }

  /** Logging keeps segment orders gap-free: a rotation adds the next
      order. */
  lemma InternalLogKeepsConsecutive(w: Wal, rec: Record)
    requires |w.segments| > 0 && Consecutive(w.segments)
    requires InternalLog(w, rec).Logged?
    ensures Consecutive(InternalLog(w, rec).wal.segments)
  {
    var segs, segs' := w.segments, InternalLog(w, rec).wal.segments;
    var n := |segs|;
    assert forall i :: 0 <= i < n - 1 ==> segs'[i] == segs'[..n - 1][i] == segs[i];
  }

  /** The public `appendNewSegment` keeps segment orders gap-free. */
  lemma AppendNewSegmentKeepsConsecutive(w: Wal)
    requires |w.segments| > 0 && Consecutive(w.segments)
    requires AppendNewSegment(w).Ok?
    ensures Consecutive(AppendNewSegment(w).value.0.segments)
  {
  }

  /** Dropping leading segments keeps orders gap-free. */
  lemma SuffixKeepsConsecutive(segs: seq<Segment>, k: nat)
    requires Consecutive(segs) && k < |segs|
    ensures Consecutive(segs[k..])
  {
    assert forall i :: 0 <= i < |segs[k..]| ==> segs[k..][i] == segs[k + i];
  }

  /** `truncate` keeps segment orders gap-free. */
  lemma TruncateKeepsConsecutive(w: Wal)
    requires |w.segments| > 0 && Consecutive(w.segments)
    ensures Consecutive(Truncate(w).segments)
  {
  }

  /** `cutTill` keeps segment orders gap-free. */
  lemma CutTillKeepsConsecutive(w: Wal, lsn: Lsn)
    requires |w.segments| > 0 && Sorted(w.cutTillLimits) && Consecutive(w.segments)
    requires CutTill(w, lsn).Ok?
    ensures Consecutive(CutTill(w, lsn).value.wal.segments)
  {
    var kept := CutTill(w, lsn).value.wal.segments;
    SuffixKeepsConsecutive(w.segments, |w.segments| - |kept|);
  }

  /** `moveLsnAfter` can leave a gap in segment orders, after which the
      index arithmetic of `read` no longer finds the segment the next
      logged record lands in. */
  lemma MoveLsnAfterCanBreakConsecutive()
    ensures var filled := Segment(0, 10, Some(Lsn(0, 0)), Some(Lsn(0, 5)));
            var w := Initial(Config(100, 1000), [filled]);
            && Valid(w) && Consecutive(w.segments)
            && MoveLsnAfter(w, Lsn(5, 0)).Ok?
            && var moved := MoveLsnAfter(w, Lsn(5, 0)).value;
               && moved.segments == [filled, NewSegment(6)]
               && !Consecutive(moved.segments)
               && var logged := InternalLog(moved, Record(Plain, false, 20));
                  && logged.Logged? && logged.lsn == Lsn(6, 0)
                  && ReadIndex(logged.wal.segments, logged.lsn).None?
  {
    var filled := Segment(0, 10, Some(Lsn(0, 0)), Some(Lsn(0, 5)));
    var w := Initial(Config(100, 1000), [filled]);
    assert w.segments == [filled];
    assert End(w.segments) == Some(Lsn(0, 5));
    assert Valid(w);
    var moved := MoveLsnAfter(w, Lsn(5, 0)).value;
    assert moved.segments == [filled, NewSegment(6)];
    assert moved.segments[1].order != moved.segments[0].order + 1;
    var logged := InternalLog(moved, Record(Plain, false, 20));
    assert !MustWait(moved, Record(Plain, false, 20));
    assert logged.lsn == NextLsn(moved.segments) == Lsn(6, 0);
    assert |logged.wal.segments| == 2 && logged.wal.segments[0] == filled;
    assert SegmentIndex(logged.wal.segments, Lsn(6, 0)) == 6;
  }

  /** The oldest transaction LSN is the least entry of the history and was
      handed out before. */
  lemma OldestTxIsLeast(w: Wal)
    requires Valid(w)
    ensures GetOldestTxLsn(w).Some? ==> IssuedBefore(w.segments, GetOldestTxLsn(w).value)
    ensures GetOldestTxLsn(w).Some? ==> forall i :: 0 <= i < |w.lastTxs| ==> LessEq(GetOldestTxLsn(w).value, w.lastTxs[i])
    ensures GetOldestTxLsn(w).None? <==> |w.lastTxs| == 0 && End(w.segments).None?
  {
    if |w.lastTxs| == 0 && End(w.segments).Some? {
      assert LessEq(End(w.segments).value, End(w.segments).value);
    }
  }

  /** The end-record history grows to `MaxLastTxs + 1` entries, not
      `MaxLastTxs`: the size test runs before the add. */
  lemma LastTxsReachesSeventeen(w: Wal, id: OpId, footprint: Footprint)
    requires |w.segments| > 0 && |w.lastTxs| == MaxLastTxs
    requires LogAtomicOperationEndRecord(w, id, footprint).Logged?
    ensures |LogAtomicOperationEndRecord(w, id, footprint).wal.lastTxs| == MaxLastTxs + 1 == 17
  {
  }

  /** Once full, the history drops its oldest entry for each new one. */
  lemma LastTxsSlides(w: Wal, id: OpId, footprint: Footprint)
    requires |w.segments| > 0 && |w.lastTxs| == MaxLastTxs + 1
    requires LogAtomicOperationEndRecord(w, id, footprint).Logged?
    ensures var txs := LogAtomicOperationEndRecord(w, id, footprint).wal.lastTxs;
            |txs| == MaxLastTxs + 1 && txs[..MaxLastTxs] == w.lastTxs[1..]
  {
  }
}

=== FILE: wal_rotation.dfy ===
/** The segment-rotation protocol of `internalLog`: a full tail segment is
    only closed at a point where no atomic operation straddles the
    boundary, and while a rotation is pending no new operation may start. */
module WalRotation {
  import opened Wrappers
  import opened Lsns
  import opened Segments
  import opened SegmentList
  import opened WriteAheadLog

  /** The tail segment reaches the size limit once `footprint` more bytes
      are written to it. */
  predicate FillsTail(w: Wal, footprint: Footprint)
    requires |w.segments| > 0
  {
    w.segments[|w.segments| - 1].filledUpTo + footprint >= w.config.maxSegmentSize
  }

  /** An end record logged while another operation is still active never
      closes the segment; if it fills the tail, the rotation is deferred
      through the creation flag. */
  lemma EndWithOthersActiveDefers(w: Wal, id: OpId, footprint: Footprint)
    requires |w.segments| > 0
    requires |w.activeOperations| >= 2
    requires LogAtomicOperationEndRecord(w, id, footprint).Logged?
    ensures |LogAtomicOperationEndRecord(w, id, footprint).wal.segments| == |w.segments|
    ensures FillsTail(w, footprint) ==> LogAtomicOperationEndRecord(w, id, footprint).wal.segmentCreationFlag
  {
  }

  /** The end record of the last active operation closes a full tail: a
      new empty segment follows, the flag is cleared and nothing is active
      afterwards. */
  lemma LastEndRotates(w: Wal, id: OpId, footprint: Footprint)
    requires |w.segments| > 0
    requires w.activeOperations == {id}
    requires FillsTail(w, footprint)
    ensures LogAtomicOperationEndRecord(w, id, footprint).Logged?
    ensures var after := LogAtomicOperationEndRecord(w, id, footprint).wal;
            && |after.segments| == |w.segments| + 1
            && after.segments[|w.segments|] == NewSegment(w.segments[|w.segments| - 1].order + 1)
            && !after.segmentCreationFlag
            && after.activeOperations == {}
  {
    assert |w.activeOperations| == 1;
  }

  /** A record outside atomic operations closes a full tail when nothing is
      active. */
  lemma PlainRecordRotatesWhenIdle(w: Wal, updateMasterRecord: bool, footprint: Footprint)
    requires |w.segments| > 0
    requires w.activeOperations == {}
    requires FillsTail(w, footprint)
    ensures InternalLog(w, Record(Plain, updateMasterRecord, footprint)).Logged?
    ensures var after := InternalLog(w, Record(Plain, updateMasterRecord, footprint)).wal;
            |after.segments| == |w.segments| + 1 && !after.segmentCreationFlag
  {
  }

  /** Start records and the other records of an atomic operation never
      close a segment. */
  lemma OperationRecordsNeverRotate(w: Wal, rec: Record)
    requires |w.segments| > 0
    requires rec.kind.AtomicStart? || rec.kind.OperationUnit?
    requires InternalLog(w, rec).Logged?
    ensures |InternalLog(w, rec).wal.segments| == |w.segments|
    ensures FillsTail(w, rec.footprint) ==> InternalLog(w, rec).wal.segmentCreationFlag
  {
  }

  /** While a rotation is pending the operations already active proceed:
      their records are never held back. */
  lemma ActiveOperationsProceed(w: Wal, rec: Record)
    requires |w.segments| > 0
    requires rec.kind.Plain? || UnitId(rec.kind) in w.activeOperations
    ensures InternalLog(w, rec).Logged?
  {
  }

  /** The deferral in one trace: an operation ends while another is still
      active and fills the tail; the segment stays open, the flag is set,
      and an operation that has not started yet is held back. */
  lemma DeferredRotationBlocksNewOperations(w: Wal, id: OpId, other: OpId, newcomer: OpId,
                                            footprint: Footprint, next: Footprint)
    requires |w.segments| > 0
    requires w.activeOperations == {id, other} && id != other
    requires newcomer !in w.activeOperations
    requires FillsTail(w, footprint)
    ensures LogAtomicOperationEndRecord(w, id, footprint).Logged?
    ensures var after := LogAtomicOperationEndRecord(w, id, footprint).wal;
            && |after.segments| == |w.segments|
            && after.segmentCreationFlag
            && after.activeOperations == {other}
            && LogAtomicOperationStartRecord(after, newcomer, next).Blocked?
  {
    assert |w.activeOperations| == 2 by {
      assert w.activeOperations == {id} + {other};
    }
    var after := LogAtomicOperationEndRecord(w, id, footprint).wal;
    assert newcomer !in after.activeOperations;
  }

  /** Continuing the trace: when the remaining operation ends, the pending
      rotation is carried out even if its own record does not fill the
      tail, and new operations may start again. */
  lemma PendingRotationDoneByLastEnd(w: Wal, other: OpId, footprint: Footprint, newcomer: OpId, next: Footprint)
    requires |w.segments| > 0
    requires w.activeOperations == {other}
    requires w.segmentCreationFlag
    requires w.segments[|w.segments| - 1].filledUpTo >= w.config.maxSegmentSize
    ensures LogAtomicOperationEndRecord(w, other, footprint).Logged?
    ensures var after := LogAtomicOperationEndRecord(w, other, footprint).wal;
            && |after.segments| == |w.segments| + 1
            && !after.segmentCreationFlag
            && !LogAtomicOperationStartRecord(after, newcomer, next).Blocked?
  {
    LastEndRotates(w, other, footprint);
  }
}

=== FILE: wrappers.dfy ===
/** Option and Result, the two failure-compatible wrappers the model uses in
    place of Java's null returns and thrown exceptions. */
module Wrappers {

  /** A value that may be absent; `None` plays the part of a Java `null`. */
  datatype Option<+T> = None | Some(value: T) {

    predicate IsFailure() {
      None?
    }

    function PropagateFailure<U>(): Option<U>
      requires None?
    {
      None
    }

    function Extract(): T
      requires Some?
    {
      value
    }
  }

  /** Either a successful value or the error an exception would report. */
  datatype Result<+R, +E> = Ok(value: R) | Err(error: E) {

    predicate IsFailure() {
      Err?
    }

    function PropagateFailure<U>(): Result<U, E>
      requires Err?
    {
      Err(error)
    }

    function Extract(): R
      requires Ok?
    {
      value
    }
  }
}
